=== FILE: README.md ===
# MemeVerse and OutSwap front-end logic, in Dafny

This project models the parts of the Outrun web front end that decide
things rather than draw them:

- the MemeVerse **catalog query engine**: a fixed filter pipeline, then a sort on one key in
  one direction, then pages of 15, with the page guard, the sort-option tables
  and the three dropdowns;
- the **token-creation form**: the input filter on the two durations, their
  range validation, the omni-chain toggle, the modals and the ordered submit
  gate;
- the OutSwap **add-liquidity form**: the amount regex, the "Max" sanitiser,
  the slippage and deadline filters, the enable predicates, the starting
  price and its reversed display;
- the **formatting helpers** of `utils/format.ts` and `utils/memeverse.ts`;
- the derivations of a **board project card**;
- the **debounce and throttle hooks**, as timer state machines.

Each piece keeps the source's own form. A component that updates state
becomes a `class`. Its methods are specified against pure step functions,
and the lemmas are stated over those functions. Pure helpers become
functions with contracts. The clock, the time-zone offset and the presence
of a DOM element are parameters. Navigation, alerts and focus become
returned tags.

Modules:

| file | module | models |
|---|---|---|
| `wrappers.dfy` | `Wrappers` | `Option` |
| `text.dfy` | `Text` | ASCII `toLowerCase`, `includes` and digit classes |
| `seqs.dfy` | `Seqs` | `Array.prototype.filter` and subsequences |
| `numbers.dfy` | `Numbers` | `Number(...)` and `parseFloat` on digit-and-dot text, digits of a natural number |
| `project.dfy` | `Projects` | the MemeVerse project record |
| `catalog.dfy` | `Catalog` | `contexts/memeverse-context.tsx` |
| `create_form.dfy` | `CreateForm` | `app/memeverse/create/page.tsx` |
| `add_liquidity.dfy` | `AddLiquidity` | `app/outswap/liquidity/add/page.tsx` |
| `format.dfy` | `Format` | `utils/format.ts`, and `formatMarketCap` and `formatPercentage` of `utils/memeverse.ts` |
| `memeverse_utils.dfy` | `MemeverseUtils` | the rest of `utils/memeverse.ts` and the tables of `styles/memeverse-styles.ts` |
| `project_card.dfy` | `ProjectCard` | `components/memeverse/board/project-card.tsx` |
| `debounce.dfy` | `Debounce` | `hooks/use-debounced-state.ts` |
| `throttle.dfy` | `Throttle` | `hooks/use-throttle.ts` |

## Model

| member | source | states |
|---|---|---|
| Text.Lower | contexts/memeverse-context.tsx:160 | lower-casing keeps the length and maps each ASCII capital to the same letter in lower case (32 code points on), every other character unchanged |
| Text.Contains | contexts/memeverse-context.tsx:163-165 | `includes` holds iff the needle occurs at some position of the text |
| Text.DigitPrefix | app/outswap/liquidity/add/page.tsx:110 | the leading run of digits: a digits-only prefix followed by a non-digit or the end |
| Seqs.Filter | contexts/memeverse-context.tsx:141 | `filter` keeps only elements that pass and every element that passes is in the result, never more elements than the input, all taken from the input |
| Seqs.FilterCounts | contexts/memeverse-context.tsx:141 | `filter` keeps every occurrence of each value that passes and no occurrence of one that fails |
| Seqs.FilterIsSubseq | contexts/memeverse-context.tsx:141-167 | a filtered list is a subsequence of its input |
| Seqs.FilterFuse | contexts/memeverse-context.tsx:141-167 | filtering twice equals filtering once by the conjunction |
| Numbers.NatToDigitsRoundTrip | utils/memeverse.ts:78-82 | the decimal digits printed for a count read back as that count |
| Numbers.ParseFloat | app/outswap/liquidity/add/page.tsx:174-175 | `parseFloat` skips leading white space and reads a leading number: a value whenever the text starts with a digit, none for empty text or a leading letter, and the literal's own value for a whole decimal literal |
| Numbers.LeadingDecimal | app/outswap/liquidity/add/page.tsx:174-175 | the leading decimal is absent iff the text starts with neither a digit nor a dot and a digit; a whole digit string or literal `ip.fp` reads as its value |
| Numbers.ParseFloatSkipsSpace | app/outswap/liquidity/add/page.tsx:174-175 | white space before the number does not change what `parseFloat` reads |
| Numbers.NumberOf | app/outswap/liquidity/add/page.tsx:71-74 | `Number(...)` gives 0 for "", the digits' value for a digit string, `ip + 0.fp` for a literal `ip.fp` with one dot and a digit, and NaN for "." alone, for two dots and for any character that is neither a digit nor '.' |
| Catalog.StageLabel | contexts/memeverse-context.tsx:135-141 | the stage map has an entry exactly for genesis, refund, locked and unlocked |
| Catalog.PipelineIsFiltered | contexts/memeverse-context.tsx:131-167 | the five conditional filter steps, run in order, equal one filter by the conjunction of their conditions |
| Catalog.FilteredSpec | contexts/memeverse-context.tsx:135-167 | the filtered list is a subsequence of the projects, and a project is in it iff its stage matches the stage map, the mode (Genesis only), the listing flag (Genesis only), the lower-cased chain unless "all", and the lower-cased query occurs in its lower-cased name, symbol or description unless the query is empty |
| Catalog.SortValue | contexts/memeverse-context.tsx:172-182 | creation time, raised amount and population always give a key; an option outside the nine numeric and date keys of `SORT_OPTIONS` gives none in this model (see "## Left out") |
| Catalog.SortedMeansMonotone | contexts/memeverse-context.tsx:184-188 | a list sorted on a key every element has is non-decreasing for "asc" and non-increasing for "desc" |
| Catalog.SwapAdjacent | contexts/memeverse-context.tsx:171 | one exchange of neighbours moves those two elements and no other, so the contents are a permutation |
| Catalog.SortOn | contexts/memeverse-context.tsx:170-190 | the in-place sort leaves a permutation of the array, ordered in the chosen direction whenever every element has a key |
| Catalog.RunFilters | contexts/memeverse-context.tsx:132-167 | the step-by-step pipeline returns the specified filtered list |
| Catalog.SortView | contexts/memeverse-context.tsx:169-190 | the sorted view is a permutation of the filtered list, unchanged when no sort option is set, ordered when every element has a key |
| Catalog.TotalPages | contexts/memeverse-context.tsx:207 | `ceil(n / 15)`: enough pages for `n` items, no empty last page, and 0 pages exactly for an empty result |
| Catalog.SliceIndex | contexts/memeverse-context.tsx:210 | a slice bound clamps to the list length |
| Catalog.PageOf | contexts/memeverse-context.tsx:210 | page `p` is the run of at most 15 items starting at `(p-1)*15`, full unless it is the last, and non-empty for every page from 1 to the page count |
| Catalog.SortOptions | contexts/memeverse-context.tsx:24-53 | the options are empty exactly for refund and unknown stages or modes, start with creation time, use only known keys, and offer progress only for a flash Genesis |
| Catalog.FindLabel | contexts/memeverse-context.tsx:285 | `find` gives the caption of the first option with the id, and nothing iff no option has it |
| Catalog.CurrentSortLabel | contexts/memeverse-context.tsx:283-287 | the label of the chosen option, "Creation Time" when no option matches (so always for refund) |
| Catalog.Engine.constructor | contexts/memeverse-context.tsx:110-123 | no projects, the default criteria, page 1 and every dropdown closed |
| Catalog.Engine.CurrentProjects | contexts/memeverse-context.tsx:210 | the visible projects are at most 15 consecutive items of the view starting at the current page, and some exist while the view is non-empty |
| Catalog.Engine.Recompute | contexts/memeverse-context.tsx:131-204 | the view becomes the sorted filtered projects and the page returns to 1 |
| Catalog.Engine.UpdateCriteria | contexts/memeverse-context.tsx:192-204 | new criteria recompute the view and reset the page to 1; equal criteria change nothing |
| Catalog.Engine.SetActiveChainFilter | contexts/memeverse-context.tsx:195-204 | a different chain resets the page to 1; the same one changes nothing |
| Catalog.Engine.SetActiveStageFilter | contexts/memeverse-context.tsx:195-204 | a different stage resets the page to 1; the same one changes nothing |
| Catalog.Engine.SetSearchQuery | contexts/memeverse-context.tsx:195-204 | a different query resets the page to 1; the same one changes nothing |
| Catalog.Engine.SetSelectedMode | contexts/memeverse-context.tsx:195-204 | a different mode resets the page to 1; the same one changes nothing |
| Catalog.Engine.SetShowListedOnOutSwap | contexts/memeverse-context.tsx:195-204 | a different listing flag resets the page to 1; the same one changes nothing |
| Catalog.Engine.SetSortOption | contexts/memeverse-context.tsx:195-204 | a different sort option resets the page to 1; the same one changes nothing |
| Catalog.Engine.ToggleSortDirection | contexts/memeverse-context.tsx:222-225 | the direction flips, so two toggles restore it, and the page resets to 1 |
| Catalog.Engine.SetProjects | contexts/memeverse-context.tsx:126-128 | a different project list resets the page to 1; the same one changes nothing |
| Catalog.Engine.HandlePageChange | contexts/memeverse-context.tsx:213-220 | the page moves to `k` and the window scrolls iff `1 <= k <= totalPages`; otherwise nothing changes |
| Catalog.Engine.ToggleDropdown | contexts/memeverse-context.tsx:227-264 | toggling the open menu closes it, toggling another opens that one only; at most one is open and it is the active one |
| Catalog.Engine.CloseAllDropdowns | contexts/memeverse-context.tsx:266-272 | no menu is active and all three are closed |
| CreateForm.ChecksAgree | app/memeverse/create/page.tsx:115-155 | for a non-empty duration the validation effect and the submit range check agree; an empty one is valid for the effect |
| CreateForm.KeySet | app/memeverse/create/page.tsx:115-134 | storing a digit-only duration, with the effect rerun when it changed, leaves its flag set only when valid and clear only when out of range |
| CreateForm.KeyUntouched | app/memeverse/create/page.tsx:158-184 | editing another field keeps a duration field and its flag as valid as before |
| CreateForm.ToggleMember | app/memeverse/create/page.tsx:273-288 | toggling removes every occurrence of a present chain or appends an absent one; removal keeps every other chain as often as it was there and in order (the multiset loses only that chain, and the result is a subsequence), so the length falls by the removed occurrences, and appending adds one |
| CreateForm.DropCounts | app/memeverse/create/page.tsx:276-278 | filtering out a chain removes all its occurrences and leaves every other count, so the length falls by its count |
| CreateForm.ToggleTwice | app/memeverse/create/page.tsx:273-288 | toggling the same chain twice restores every membership |
| CreateForm.FirstBlockingIn | app/memeverse/create/page.tsx:310-322 | the first required field that is empty and has an element on the page, and none iff every field is filled or has no element |
| CreateForm.SubmitGate | app/memeverse/create/page.tsx:324-366 | a submission starts only with both durations non-empty and within 1 to 3 and 1 to 365 days; a lock error is reported only after the genesis check passed |
| CreateForm.Form.constructor | app/memeverse/create/page.tsx:64-90 | the initial form data, both durations valid, no modal, no chains, not submitting |
| CreateForm.Form.HandleChange | app/memeverse/create/page.tsx:158-184 | a duration field takes the new value iff it is empty or all digits, any other field takes it verbatim; the validity flag of a changed duration is recomputed; nothing else changes |
| CreateForm.Form.SetGenesisDuration | app/memeverse/create/page.tsx:115-134 | a digit-only genesis duration is stored; its flag becomes the effect's verdict when the text changed and stays otherwise; the form stays valid |
| CreateForm.Form.SetLockDuration | app/memeverse/create/page.tsx:136-155 | a digit-only lock duration is stored; its flag becomes the effect's verdict when the text changed and stays otherwise; the form stays valid |
| CreateForm.Form.SetOtherField | app/memeverse/create/page.tsx:158-184 | any other field takes the value verbatim and both duration flags stay valid |
| CreateForm.Form.ToggleFlashGenesis | app/memeverse/create/page.tsx:107-112 | the flash flag flips and nothing else changes |
| CreateForm.Form.ToggleOmniChain | app/memeverse/create/page.tsx:273-288 | the list becomes the toggled list: the chain's membership flips, other chains keep theirs, and the count shown as "N chains selected" falls by the chain's occurrences or grows by one |
| CreateForm.Form.OpenModal | app/memeverse/create/page.tsx:221-229 | the chosen modal becomes current |
| CreateForm.Form.CloseModal | app/memeverse/create/page.tsx:232-240 | no modal is current |
| CreateForm.Form.HandleNetworkSelect | app/memeverse/create/page.tsx:243-255 | the governance chain is set and the modal closes |
| CreateForm.Form.HandleFundTypeSelect | app/memeverse/create/page.tsx:258-270 | the fund type is set and the modal closes |
| CreateForm.Form.FindBlockingField | app/memeverse/create/page.tsx:301-322 | the loop over the required fields stops at the first blocking field |
| CreateForm.Form.Submit | app/memeverse/create/page.tsx:296-366 | the outcome is the submit decision; a range error clears only its own validity flag; only a passing submission sets the submitting flag |
| CreateForm.Form.SubmitTimerFired | app/memeverse/create/page.tsx:369-380 | the submitting flag is cleared |
| AddLiquidity.AmountTextMeans | app/outswap/liquidity/add/page.tsx:108-120 | the amount pattern accepts exactly the texts made of digits and at most one '.' |
| AddLiquidity.DigitsAreAmountText | app/outswap/liquidity/add/page.tsx:110 | a text of digits only is always accepted |
| AddLiquidity.AmountParsesAlike | app/outswap/liquidity/add/page.tsx:171-179 | on accepted non-empty amount text `parseFloat` and `Number` agree |
| AddLiquidity.SanitizeBalance | app/outswap/liquidity/add/page.tsx:123-133 | "Max" gives "0" for an empty balance; otherwise every occurrence of a digit or '.' of the balance stays, in order, and every other character goes |
| AddLiquidity.SanitizeKeepsClean | app/outswap/liquidity/add/page.tsx:125 | a balance already made of digits and dots is taken as it is |
| AddLiquidity.SlippageFilter | app/outswap/liquidity/add/page.tsx:375 | the slippage text keeps every occurrence of a digit or '.', in order, and drops every other character |
| AddLiquidity.DeadlineFilter | app/outswap/liquidity/add/page.tsx:435 | the deadline text keeps every digit, in order, and drops every other character |
| AddLiquidity.FiltersIdempotent | app/outswap/liquidity/add/page.tsx:375 | filtering a second time changes nothing |
| AddLiquidity.FiltersKeepClean | app/outswap/liquidity/add/page.tsx:375 | clean input passes the filters unchanged |
| AddLiquidity.StartingPrice | app/outswap/liquidity/add/page.tsx:67-82 | a starting price exists iff both amounts are non-empty, numeric and positive, and it is then the positive ratio token2 / token1 |
| AddLiquidity.RatioScales | app/outswap/liquidity/add/page.tsx:76-78 | the starting price times the first amount is the second amount |
| AddLiquidity.EnableAgree | app/outswap/liquidity/add/page.tsx:171-179 | on accepted amount text, adding is enabled iff a starting price exists, and the price is shown iff the pool is new and adding is enabled |
| AddLiquidity.DisplayPrice | app/outswap/liquidity/add/page.tsx:141-168 | "--" for no or a zero price; otherwise the price, or its reciprocal when reversed |
| AddLiquidity.Form.constructor | app/outswap/liquidity/add/page.tsx:18-32 | the initial tokens, empty amounts, no starting price, fee tier 0.30%, slippage 0.5, deadline 10 |
| AddLiquidity.Form.HandleToken1Change | app/outswap/liquidity/add/page.tsx:108-113 | the first amount takes the new text iff it matches the amount pattern, and the starting price follows |
| AddLiquidity.Form.HandleToken2Change | app/outswap/liquidity/add/page.tsx:115-120 | the second amount takes the new text iff it matches the amount pattern, and the starting price follows |
| AddLiquidity.Form.SetMaxToken1 | app/outswap/liquidity/add/page.tsx:123-127 | the first amount becomes the sanitised balance, which holds only digits and dots |
| AddLiquidity.Form.SetMaxToken2 | app/outswap/liquidity/add/page.tsx:129-133 | the second amount becomes the sanitised balance, which holds only digits and dots |
| AddLiquidity.Form.HandleReversePrice | app/outswap/liquidity/add/page.tsx:136-138 | the reversed flag flips and neither amount changes |
| AddLiquidity.Form.SelectToken1 | app/outswap/liquidity/add/page.tsx:669-672 | the first token is replaced |
| AddLiquidity.Form.SelectToken2 | app/outswap/liquidity/add/page.tsx:680-683 | the second token is replaced |
| AddLiquidity.Form.ToggleFeeTierDropdown | app/outswap/liquidity/add/page.tsx:481 | the fee-tier dropdown flips |
| AddLiquidity.Form.SelectFeeTier | app/outswap/liquidity/add/page.tsx:521-524 | the chosen tier is selected and the dropdown closes |
| AddLiquidity.Form.SetSlippageInput | app/outswap/liquidity/add/page.tsx:375 | the slippage becomes the filtered text, digits and dots only |
| AddLiquidity.Form.SetDeadlineInput | app/outswap/liquidity/add/page.tsx:435 | the deadline becomes the filtered text, digits only |
| Format.FormatAddress | utils/format.ts:27-30 | "" for a missing or empty address; otherwise the first `min(len, 6)` characters, "...", and the last `min(len, 4)` |
| Format.CurrencyShown | utils/format.ts:9-13 | exponential below 1e-6, six decimals below 0.001, four below 1, two below 10000, grouped from 10000 on, each iff its range |
| Format.CurrencyTiersMonotone | utils/format.ts:9-13 | a larger number never gets a finer rendering |
| Format.FormatCurrency | utils/format.ts:4-14 | "" for empty input, a non-numeric input unchanged, otherwise the tier of the parsed number |
| Format.FormatDollarValue | utils/format.ts:19-22 | "<$0.01" iff the value is below 0.01, otherwise `$` and two decimals |
| Format.ImpactLevel | utils/format.ts:35-41 | green below 0.1, light green below 0.5, yellow below 1, red from 1 on and for NaN |
| Format.PriceImpactColor | utils/format.ts:35-41 | the colour is one of the four classes, red for a non-numeric impact |
| Format.ImpactMonotone | utils/format.ts:35-41 | a larger impact never gets a milder colour |
| Format.FormatMarketCap | utils/format.ts:60-68 | the "M" branch iff the value is at least 1e6, "K" iff 1e3 <= v < 1e6, the plain value below 1e3 |
| Format.MarketCapScales | utils/memeverse.ts:29-37 | the shown number times its unit is the value, and a scaled number is at least 1 (below 1000 for "K") |
| Format.FormatPercentage | utils/memeverse.ts:49-51 | "+" in front iff the value is non-negative, then two decimals and "%" |
| MemeverseUtils.TimeRemaining | utils/memeverse.ts:64-84 | "Ended" iff `end - now <= 0`; otherwise the floor decomposition into days, hours below 24 and minutes below 60, shown as days and hours, hours and minutes, or minutes, by the first non-zero part |
| MemeverseUtils.SplitFacts | utils/memeverse.ts:73-75 | days, hours and minutes recompose the whole minutes of the duration |
| MemeverseUtils.Render | utils/memeverse.ts:77-83 | the text is "Ended" exactly for an ended duration |
| MemeverseUtils.FormatTimeRemaining | utils/memeverse.ts:64-84 | "Ended" iff the end is not after now |
| MemeverseUtils.RenderReadsBack | utils/memeverse.ts:77-83 | the text reads back as its parts: the leading digits give the first part and are followed by "d", "h" or "m" by constructor; "Xm" ends there, while "Xd Yh" and "Xh Ym" go on with a space, digits that give the hours or minutes, and a final "h" or "m" |
| MemeverseUtils.RenderParts | utils/memeverse.ts:77-83 | a non-ended rendering is the first number, its unit letter and, for days or hours, a space, the second number and its unit letter |
| MemeverseUtils.PartsReadBack | utils/memeverse.ts:77-83 | such a text gives back both numbers and both unit letters, whatever the numbers are |
| MemeverseUtils.JsRem | utils/memeverse.ts:16 | JavaScript `%` truncates: it has the sign of the dividend and the size of the Euclidean remainder of the absolute values |
| MemeverseUtils.Pad2 | utils/memeverse.ts:7-10 | `padStart(2, "0")` gives "0" then the digit below 10, the plain digits from 10 on, two characters below 100, and always reads back as the number |
| MemeverseUtils.OffsetLabelAsWritten | utils/memeverse.ts:13-22 | the sign is "+" iff the offset is at most 0 and the minutes are `abs(off % 60)`; for a negative offset with minutes the hours overshoot by one |
| MemeverseUtils.OffsetAsWrittenIndia | utils/memeverse.ts:15-16 | an offset of -330 is labelled "UTC+6:30" |
| MemeverseUtils.OffsetLabelCorrected | utils/memeverse.ts:13-22 | the same sign and minutes rule, with hours and minutes recomposing the absolute offset |
| MemeverseUtils.OffsetCorrectedAgrees | utils/memeverse.ts:15-16 | the corrected label equals the original for non-negative and whole-hour offsets |
| MemeverseUtils.OffsetCorrectedIndia | utils/memeverse.ts:13-22 | an offset of -330 is labelled "UTC+5:30" |
| MemeverseUtils.FormatDateTime | utils/memeverse.ts:2-26 | the year digits, then "-MM-DD HH:MM " whose two-digit fields read back as month, day, hour and minute, then the time-zone label as the code computes it |
| MemeverseUtils.StampLayout | utils/memeverse.ts:25 | in the template the year digits lead, the zone ends the text after a space, and two-character parts sit at fixed offsets after the year |
| MemeverseUtils.TablesKeyed | styles/memeverse-styles.ts:6-30 | the border, background and hover-shadow tables are all keyed by the four stages and "default" |
| MemeverseUtils.StyleLookup | utils/memeverse.ts:106-125 | the entry of the lower-cased stage when it is non-empty; the table's default when the key is missing or its entry is empty, as the logical-or fallback gives |
| MemeverseUtils.StyleLookupIgnoresCase | utils/memeverse.ts:106-125 | the lookup does not depend on letter case |
| MemeverseUtils.BorderGradient | utils/memeverse.ts:106-111 | a border gradient from the table, by lower-cased stage with default |
| MemeverseUtils.BackgroundGradient | utils/memeverse.ts:113-118 | a background gradient from the table, by lower-cased stage with default |
| MemeverseUtils.HoverShadowColor | utils/memeverse.ts:120-125 | a hover shadow from the table, by lower-cased stage with default |
| MemeverseUtils.StageStyle | utils/memeverse.ts:90-103 | the style type picks one of the three lookups, and an unknown style type gives "" |
| ProjectCard.Progress | components/memeverse/board/project-card.tsx:105-113 | in Genesis the raised amount as a percentage of 10, not capped, reaching 100 iff 10 are raised; elsewhere the stored progress or 0 |
| ProjectCard.BarWidth | components/memeverse/board/project-card.tsx:307 | the width is the progress capped at 100 |
| ProjectCard.Look | components/memeverse/board/project-card.tsx:116-123 | the complete gradient, glow and text colour iff progress is at least 100 |
| ProjectCard.FullBarIsComplete | components/memeverse/board/project-card.tsx:116-123 | the bar is full iff the complete look is shown |
| ProjectCard.CardClick | components/memeverse/board/project-card.tsx:129-144 | DDIN, MDRG and QPEPE go to their detail page, PFROG to its locked page, and any other symbol shows the alert, so navigation happens iff the card is clickable |
| ProjectCard.HighApyMeans | components/memeverse/board/project-card.tsx:126 | the badge shows iff the staking APY is present and above 1000 |
| ProjectCard.StageStyle | components/memeverse/board/project-card.tsx:15-54 | the stage's colours, gray for an unknown stage |
| ProjectCard.CardBorderGradient | components/memeverse/board/project-card.tsx:57-71 | the card's switch picks a border gradient from the shared table |
| ProjectCard.CardBackgroundGradient | components/memeverse/board/project-card.tsx:73-86 | the card's switch picks a background gradient from the shared table |
| ProjectCard.CardHoverShadowColor | components/memeverse/board/project-card.tsx:88-102 | the card's switch picks a hover shadow from the shared table |
| ProjectCard.CanonicalStylesAgree | components/memeverse/board/project-card.tsx:57-102 | on the four stage names the card's switches and the shared lookups agree |
| ProjectCard.UnknownStylesAgree | components/memeverse/board/project-card.tsx:57-102 | on an unknown stage both fall to the default |
| ProjectCard.CardDefaults | components/memeverse/board/project-card.tsx:57-102 | a stage none of the card's switch cases spell gets the default entry of each table |
| ProjectCard.LookupDefaults | utils/memeverse.ts:106-125 | a stage whose lower-cased form is not a table key gets the default entry of each table |
| ProjectCard.CardSwitchIsCaseSensitive | components/memeverse/board/project-card.tsx:57-71 | "GENESIS" gets the default from the card but the genesis entry from the lookup |
| ProjectCard.VisibleRows | components/memeverse/board/project-card.tsx:240-297 | "Total Raised" iff Genesis or Refund; "Unlock Time" at the end and the progress bar iff Genesis; the end-time, unlock, staking and treasury rows each iff their stage holds and their value is present (and not 0 for a number); this is the intended card, where the code as written shows a bare "0" (see "## Findings") |
| ProjectCard.NumericSlotAsWritten | components/memeverse/board/project-card.tsx:267-275 | a `stage && value && row` slot shows the row iff the stage matches and the value is present and non-zero, and a bare "0" iff the stage matches and the value is 0 |
| ProjectCard.StakingSlotAsWritten | components/memeverse/board/project-card.tsx:267-275 | the "Staking APY" slot shows a bare "0" exactly for a Locked or Unlocked project whose APY is 0 |
| ProjectCard.TreasurySlotAsWritten | components/memeverse/board/project-card.tsx:277-282 | the "Treasury Fund" slot shows a bare "0" exactly for a Locked or Unlocked project whose fund is 0 |
| ProjectCard.SlotsAgreeWithRows | components/memeverse/board/project-card.tsx:267-282 | the slots as written show a row exactly when `VisibleRows` does; where they show a bare "0", `VisibleRows` shows nothing |
| ProjectCard.StrayZeroLocked | components/memeverse/board/project-card.tsx:267-275 | a Locked project with a staking APY of 0 gets a bare "0" and no row |
| ProjectCard.RowsByStage | components/memeverse/board/project-card.tsx:240-297 | Genesis never shows staking or treasury rows; an unknown stage shows only "Population" |
| Debounce.Init | hooks/use-debounced-state.ts:11-14 | both values start as the initial value and no timer is pending |
| Debounce.SetStep | hooks/use-debounced-state.ts:26-40 | the immediate value changes at once, the pending timer is replaced by one carrying the new value, and the debounced value stays |
| Debounce.FireStep | hooks/use-debounced-state.ts:34-37 | a due timer delivers its value and empties the slot; otherwise nothing changes |
| Debounce.UnmountStep | hooks/use-debounced-state.ts:17-23 | the pending timer is cancelled and both values stay |
| Debounce.CoherentPreserved | hooks/use-debounced-state.ts:26-40 | every transition keeps the pending timer delivering the latest value |
| Debounce.FireDeliversLatest | hooks/use-debounced-state.ts:34-37 | a fire delivers the argument of the latest `setValue`, so the two values agree afterwards |
| Debounce.SecondSetCancelsFirst | hooks/use-debounced-state.ts:30-37 | of two quick `setValue`s only the second is delivered, and not before its own delay |
| Debounce.NothingAfterUnmount | hooks/use-debounced-state.ts:17-23 | after unmounting no clock reading changes the state |
| Debounce.DebouncedState.constructor | hooks/use-debounced-state.ts:11-14 | the hook starts in the initial state |
| Debounce.DebouncedState.SetValue | hooks/use-debounced-state.ts:26-40 | the state takes the `setValue` step and stays coherent |
| Debounce.DebouncedState.Fire | hooks/use-debounced-state.ts:34-37 | the state takes the fire step; a fire leaves the two values equal |
| Debounce.DebouncedState.Unmount | hooks/use-debounced-state.ts:17-23 | the state takes the unmount step |
| Throttle.MountFn | hooks/use-throttle.ts:42-44 | `lastRan` is the mount time, with no arguments, timer or run |
| Throttle.CallStep | hooks/use-throttle.ts:47-67 | the arguments are remembered; with `limit` elapsed the function runs at once and a pending timer is left alone; otherwise the timer is replaced by one due at `lastRan + limit`, which is after the call |
| Throttle.FireStep | hooks/use-throttle.ts:59-64 | a due timer runs the function with the latest arguments, records the time and clears itself |
| Throttle.UnmountFn | hooks/use-throttle.ts:73-79 | the pending timer is cleared |
| Throttle.ArgsReadyPreserved | hooks/use-throttle.ts:59-64 | a pending timer always has arguments to run |
| Throttle.CallKeepsThrottled | hooks/use-throttle.ts:47-67 | a call that finds no overdue timer keeps the timer due at `lastRan + limit` and the runs spaced |
| Throttle.FireKeepsThrottled | hooks/use-throttle.ts:59-64 | a fire keeps the timer and spacing invariant |
| Throttle.OnTimeRunsSpaced | hooks/use-throttle.ts:47-67 | over any sequence of calls and clock ticks in which timers fire on time, runs only accumulate and no two are less than `limit` apart |
| Throttle.BurstRunsLatestOnce | hooks/use-throttle.ts:55-64 | calls inside the limit produce one trailing run, with the last call's arguments, no earlier than `lastRan + limit` |
| Throttle.OverdueTimerRunsTwice | hooks/use-throttle.ts:50-53 | a call that finds the timer overdue runs at once without cancelling it, so the function runs twice at the same instant |
| Throttle.ThrottledFn.constructor | hooks/use-throttle.ts:41-44 | the hook starts in the mounted state |
| Throttle.ThrottledFn.Call | hooks/use-throttle.ts:47-67 | the state takes the call step and keeps the invariant when no timer is overdue |
| Throttle.ThrottledFn.Fire | hooks/use-throttle.ts:59-64 | the state takes the fire step and keeps the invariant |
| Throttle.ThrottledFn.Unmount | hooks/use-throttle.ts:73-79 | the state takes the cleanup step |
| Throttle.MountValue | hooks/use-throttle.ts:11-30 | the throttled value starts as the value, and the first handler is due `limit` after mounting |
| Throttle.ChangeStep | hooks/use-throttle.ts:15-30 | a new value replaces the handler with one carrying it, due at `lastRan + limit`; an equal value does not re-run the effect |
| Throttle.FireValueStep | hooks/use-throttle.ts:16-23 | a due handler copies its value only if `limit` has passed since `lastRan`, and is spent either way |
| Throttle.UnmountValue | hooks/use-throttle.ts:27-29 | the pending handler is cleared |
| Throttle.SettlingPreserved | hooks/use-throttle.ts:11-30 | the pending handler carries the current value and is due at `lastRan + limit`, and with none pending the throttled value has caught up |
| Throttle.DueHandlerAlwaysUpdates | hooks/use-throttle.ts:19-22 | a handler that fires always finds `limit` elapsed, so it copies the latest value |
| Throttle.LatestValueWins | hooks/use-throttle.ts:15-30 | of two quick changes only the second reaches the throttled value, at `lastRan + limit` |
| Throttle.ThrottledValue.constructor | hooks/use-throttle.ts:11-13 | the hook starts in the mounted state |
| Throttle.ThrottledValue.Render | hooks/use-throttle.ts:15-30 | the state takes the value-change step |
| Throttle.ThrottledValue.Fire | hooks/use-throttle.ts:16-23 | the state takes the fire step; an update leaves the throttled value equal to the value |
| Throttle.ThrottledValue.Unmount | hooks/use-throttle.ts:27-29 | the state takes the cleanup step |

## Left out

- Digits of floating-point output are not modelled. This covers `toFixed`, `toLocaleString`, `toExponential` and `Intl.NumberFormat`. A `Shown` value records the chosen branch and the number it renders.
- AddLiquidity.StartingPrice: the stored price is the exact ratio, not the text that `toFixed(6)` gives.
- AddLiquidity.DisplayPrice: works on the exact ratio. A tiny ratio that rounds to "0.000000" and shows a reciprocal of Infinity is not modelled.
- Clocks and dates are integers. This covers `Date.now`, `new Date(...)`, ISO parsing, the local date getters and `getTimezoneOffset`. `formatDateTime` takes its parts as integers.
- `formatUSD`, `formatNumber` and `formatPrice` of `utils/memeverse.ts` are left out. So is `formatDateTime` of `utils/format.ts`. Each is a single locale or fixed-digit formatting call.
- The swap quote logic lives in a hook that is not part of this model.
- The random chart data, the mock-data tabs, the DOM wrappers, click-outside listeners, SWR and presentational components are left out.
- `router.push`, `alert`, `focus`, `scrollIntoView` and `window.scrollTo` are not performed. They appear as returned tags (`CardAction`, `SubmitOutcome`, the `scrollToTop` answer). Whether an element exists is passed in as a set of ids.
- `handleCommunityLinkChange`, the logo upload, `handleBackClick`, the hover state and the settings panel toggle are left out.
- CreateForm.Form.HandleChange: the form data is a map from field names to strings, with the omni chains kept separately. So an input named "omniChains" cannot overwrite the chain list the way the spread in the source would.
- MemeverseUtils.StyleLookup: JavaScript prototype keys such as "constructor" are not in the tables. A stage spelling such a key falls to the default.
- Numbers.NumberOf: covers text of digits and dots only. It does not trim white space and has no sign, exponent, hex or Infinity syntax. That text is what the filtered inputs can hold.
- Numbers.ParseFloat: skips leading white space, then reads a sign and a decimal prefix. Exponents and "Infinity" are not read.
- Text.Lower: only the ASCII capitals 'A' to 'Z' are lower-cased. JavaScript's `toLowerCase` also folds other Unicode capitals (such as 'É'), so a search that matches only through such a letter is not modelled.
- Catalog.Engine.SetProjects: compares project lists by value. React compares effect dependencies by reference, so a new list with equal contents also re-runs the effect and resets the page; the model leaves that state unchanged.
- Catalog.SortOn: `Array.prototype.sort` is modelled as an insertion sort. The comparator never answers 0, so the order of ties is not promised, and none is stated. A key that is missing or NaN makes the comparator answer "not greater"; then only the permutation is promised.
- Catalog.SortValue: date keys are integers (milliseconds) that have already been parsed. Only the nine numeric and date keys that `SORT_OPTIONS` offers are modelled. `setSortOption` accepts any text, and an option naming a text field such as "name" or "symbol" would make the comparator compare strings. The model gives no key there and keeps the filter order.
- Catalog.TotalPages: an empty result has 0 pages, not at least 1. This follows the code.
- The sort is not stable. This follows the code.
- Debounce.DebouncedState: a change of `delay` between renders is not modelled, since `delay` is fixed per instance. The hook rebuilds `setValue` when `delay` changes.
- Throttle.ThrottledValue: a change of `limit` between renders is not modelled, since `limit` is fixed per instance.
- Throttle: negative timer delays are not clamped to 0. With the clock passed in, a handler whose due time has passed fires at the next clock reading.
- The token list `COMMON_TOKENS` is not part of this model. Tokens are parameters.
- Throttle.FireStep: the initial `lastArgs` value `[]` of `useThrottleFn` is modelled as "no arguments". A timer is only ever scheduled after a call has recorded its arguments.

## Findings

| source | as written | input that shows it | evidently intended | confidence | as-written member | corrected member |
|---|---|---|---|---|---|---|
| utils/memeverse.ts:15-16 | the hour part of the UTC label is `abs(floor(offset / 60))`, so for a negative offset with a minutes part the floor rounds away from zero | offset -330 (UTC+5:30, India) gives "UTC+6:30" | hours `floor(abs(offset) / 60)`, giving "UTC+5:30" | not executed | MemeverseUtils.OffsetAsWrittenIndia | MemeverseUtils.OffsetLabelCorrected |
| components/memeverse/board/project-card.tsx:267-282 | the staking and treasury rows are guarded by `stage && value && (<div/>)`, which evaluates to the number itself when it is 0, and React renders that number | a Locked project with `stakingApy` 0 shows a bare "0" where the row would be | a row for a present non-zero value and nothing otherwise | not executed | ProjectCard.StrayZeroLocked | ProjectCard.VisibleRows |

=== FILE: add_liquidity.dfy ===
/**
 * Input handling of the OutSwap "add liquidity" page: the amount fields and
 * their decimal-text check, the "Max" balance sanitiser, the slippage and
 * deadline character filters, the enable predicates, the starting price and
 * its reversed display, and the fee-tier menu.
 */
module AddLiquidity {
  import opened Wrappers
  import opened Text
  import opened Seqs
  import opened Numbers

  // ---------------------------------------------------------------------------
  // Amount text

  /**
   * `/^[0-9]*[.]?[0-9]*$/`: the leading digits, then either nothing or a dot
   * followed only by digits.
   */
  predicate IsAmountText(s: string) {
    var ip := DigitPrefix(s);
    var rest := s[|ip|..];
    rest == [] || (rest[0] == '.' && AllDigits(rest[1..]))
  }

  predicate AtMostOneDot(s: string) {
    forall i, j :: 0 <= i < j < |s| && s[i] == '.' ==> s[j] != '.'
  }

  predicate DigitsAndDots(s: string) {
    forall i :: 0 <= i < |s| ==> IsDigitOrDot(s[i])
  }

  /** An amount text is exactly a string of digits and dots with at most one dot. */
  lemma {:induction false} AmountTextMeans(s: string)
    ensures IsAmountText(s) <==> DigitsAndDots(s) && AtMostOneDot(s)
  {
    var ip := DigitPrefix(s);
    var rest := s[|ip|..];
    assert forall i :: 0 <= i < |ip| ==> s[i] == ip[i] && IsDigit(s[i]);
    assert forall i :: |ip| <= i < |s| ==> s[i] == rest[i - |ip|];
    if IsAmountText(s) {
      if rest != [] {
        assert forall i :: |ip| < i < |s| ==> s[i] == rest[1..][i - |ip| - 1] && IsDigit(s[i]);
      }
    }
    if DigitsAndDots(s) && AtMostOneDot(s) && rest != [] {
      assert s[|ip|] == rest[0] && !IsDigit(rest[0]);
      assert rest[0] == '.';
      forall i | 0 <= i < |rest[1..]| ensures IsDigit(rest[1..][i]) {
        assert rest[1..][i] == s[|ip| + 1 + i];
      }
    }
  }

  /** A digit string with no dot, or the empty string, is an amount text. */
  lemma DigitsAreAmountText(s: string)
    requires AllDigits(s)
    ensures IsAmountText(s)
  {
    AmountTextMeans(s);
  }

  /**
   * On amount text, `Number.parseFloat` and `Number` read the same value,
   * except that "" is NaN for the first and 0 for the second.
   */
  lemma {:induction false} AmountParsesAlike(s: string)
    requires IsAmountText(s) && s != ""
    ensures ParseFloat(s) == NumberOf(s)
  {
    var ip := DigitPrefix(s);
    var rest := s[|ip|..];
    if rest != [] {
      var fp := DigitPrefix(rest[1..]);
      assert fp == rest[1..];
    }
    assert s[0] != '-' && s[0] != '+' by {
      if ip != [] {
        assert s[0] == ip[0];
      } else {
        assert s[0] == rest[0];
      }
    }
  }

  // ---------------------------------------------------------------------------
  // Character filters

  function DigitOrDotKeep(): char -> bool {
    (c: char) => IsDigitOrDot(c)
  }

  function DigitKeep(): char -> bool {
    (c: char) => IsDigit(c)
  }

  /**
   * `setMaxToken*`: the balance with every character other than a digit or
   * '.' removed, or "0" when there is no balance.
   */
  function SanitizeBalance(balance: string): (r: string)
    ensures DigitsAndDots(r)
    ensures balance == "" ==> r == "0"
    ensures balance != "" ==> SubseqOf(r, balance)
    ensures forall i :: 0 <= i < |balance| && IsDigitOrDot(balance[i]) ==> balance[i] in r
    ensures balance != "" ==>
      forall c | c in balance :: multiset(r)[c] == if IsDigitOrDot(c) then multiset(balance)[c] else 0
  {
    if balance == "" then
      "0"
    else
      FilterIsSubseq(balance, DigitOrDotKeep());
      FilterCounts(balance, DigitOrDotKeep());
      Filter(balance, DigitOrDotKeep())
  }

  /** A balance already made of digits and dots is taken as it is. */
  lemma SanitizeKeepsClean(balance: string)
    requires balance != "" && DigitsAndDots(balance)
    ensures SanitizeBalance(balance) == balance
  {
    FilterAll(balance, DigitOrDotKeep());
  }

  /** The slippage input filter `replace(/[^0-9.]/g, "")`. */
  function SlippageFilter(s: string): (r: string)
    ensures DigitsAndDots(r)
    ensures SubseqOf(r, s)
    ensures forall c | c in s :: multiset(r)[c] == if IsDigitOrDot(c) then multiset(s)[c] else 0
  {
    FilterIsSubseq(s, DigitOrDotKeep());
    FilterCounts(s, DigitOrDotKeep());
    Filter(s, DigitOrDotKeep())
  }

  /** The deadline input filter `replace(/[^0-9]/g, "")`. */
  function DeadlineFilter(s: string): (r: string)
    ensures AllDigits(r)
    ensures SubseqOf(r, s)
    ensures forall c | c in s :: multiset(r)[c] == if IsDigit(c) then multiset(s)[c] else 0
  {
    FilterIsSubseq(s, DigitKeep());
    FilterCounts(s, DigitKeep());
    Filter(s, DigitKeep())
  }

  /** Filtering again changes nothing. */
  lemma FiltersIdempotent(s: string)
    ensures SlippageFilter(SlippageFilter(s)) == SlippageFilter(s)
    ensures DeadlineFilter(DeadlineFilter(s)) == DeadlineFilter(s)
  {
    FilterIdempotent(s, DigitOrDotKeep());
    FilterIdempotent(s, DigitKeep());
  }

  /** Text that already passes a filter comes through it unchanged. */
  lemma FiltersKeepClean(s: string)
    ensures DigitsAndDots(s) ==> SlippageFilter(s) == s
    ensures AllDigits(s) ==> DeadlineFilter(s) == s
  {
    if DigitsAndDots(s) {
      FilterAll(s, DigitOrDotKeep());
    }
    if AllDigits(s) {
      FilterAll(s, DigitKeep());
    }
  }

  // ---------------------------------------------------------------------------
  // Enable predicates and the starting price

  predicate Positive(v: Option<real>) {
    v.Some? && v.value > 0.0
  }

  /** `canAddLiquidity`: both amounts non-empty and `parseFloat` of each > 0. */
  predicate CanAddLiquidity(a1: string, a2: string) {
    a1 != "" && a2 != "" && Positive(ParseFloat(a1)) && Positive(ParseFloat(a2))
  }

  /** `shouldShowStartingPrice`: a new pool and both amounts non-empty with `Number` of each > 0. */
  predicate ShouldShowStartingPrice(isNewPool: bool, a1: string, a2: string) {
    isNewPool && a1 != "" && a2 != "" && Positive(NumberOf(a1)) && Positive(NumberOf(a2))
  }

  /**
   * The starting-price effect: `token2Amount / token1Amount` when both
   * amounts are non-empty numbers above 0, otherwise no price ("").
   */
  function StartingPrice(a1: string, a2: string): (r: Option<real>)
    ensures r.Some? <==> a1 != "" && a2 != "" && Positive(NumberOf(a1)) && Positive(NumberOf(a2))
    ensures r.Some? ==> r.value > 0.0 && r.value == NumberOf(a2).value / NumberOf(a1).value
  {
    if a1 != "" && a2 != "" && Positive(NumberOf(a1)) && Positive(NumberOf(a2)) then
      Some(NumberOf(a2).value / NumberOf(a1).value)
    else
      None
  }

  /** `price` converts an amount `from` of one token into `to` of the other. */
  predicate Converts(price: real, from: real, to: real) {
    price * from == to
  }

  /** A quotient by a positive real converts that real back into the dividend. */
  lemma RatioTimes(p: real, n1: real, n2: real)
    requires n1 > 0.0 && p == n2 / n1
    ensures Converts(p, n1, n2)
  {
  }

  /** The starting price converts the first amount into the second. */
  lemma RatioScales(a1: string, a2: string)
    requires StartingPrice(a1, a2).Some?
    ensures Converts(StartingPrice(a1, a2).value, NumberOf(a1).value, NumberOf(a2).value)
  {
    var p, n1, n2 := StartingPrice(a1, a2).value, NumberOf(a1).value, NumberOf(a2).value;
    RatioTimes(p, n1, n2);
  }

  /**
   * For amounts typed into the fields, the button, the starting price and
   * (for a new pool) the price panel are enabled together.
   */
  lemma EnableAgree(a1: string, a2: string, isNewPool: bool)
    requires IsAmountText(a1) && IsAmountText(a2)
    ensures CanAddLiquidity(a1, a2) <==> StartingPrice(a1, a2).Some?
    ensures ShouldShowStartingPrice(isNewPool, a1, a2) <==> isNewPool && CanAddLiquidity(a1, a2)
  {
    if a1 != "" {
      AmountParsesAlike(a1);
    }
    if a2 != "" {
      AmountParsesAlike(a2);
    }
  }

  /**
   * `getDisplayPrice`: nothing to show without a non-zero price; otherwise
   * the price, or its reciprocal when the display is reversed.
   */
  function DisplayPrice(price: Option<real>, reversed: bool): (r: Option<real>)
    ensures r.Some? <==> price.Some? && price.value != 0.0
    ensures r.Some? && !reversed ==> r.value == price.value
    ensures r.Some? && reversed ==> r.value * price.value == 1.0
  {
    if price.None? || price.value == 0.0 then None
    else if reversed then Some(1.0 / price.value)
    else Some(price.value)
  }

  const FeeTiers: seq<string> := ["0.30%", "1.00%"]

  datatype Token = Token(symbol: string, balance: string)

  /**
   * The page state that its handlers change. The token selection modals,
   * the settings panel and hover are left out, so choosing a token does not
   * model the modal closing after it.
   */
  class Form {
    var token1: Token
    var token2: Token
    var token1Amount: string
    var token2Amount: string
    var startingPrice: Option<real>
    var isPriceReversed: bool
    var isNewPool: bool
    var selectedFeeTier: string
    var showFeeTierDropdown: bool
    var slippage: string
    var swapDeadline: string

    /** The starting-price effect has run on the current amounts. */
    ghost predicate Valid()
      reads this
    {
      startingPrice == StartingPrice(token1Amount, token2Amount)
    }

    constructor (t1: Token, t2: Token)
      ensures Valid()
      ensures token1 == t1 && token2 == t2
      ensures token1Amount == "" && token2Amount == "" && startingPrice == None
      ensures !isPriceReversed && isNewPool && selectedFeeTier == FeeTiers[0] && !showFeeTierDropdown
      ensures slippage == "0.5" && swapDeadline == "10"
    {
      token1, token2 := t1, t2;
      token1Amount, token2Amount := "", "";
      startingPrice := None;
      isPriceReversed := false;
      isNewPool := true;
      selectedFeeTier := "0.30%";
      showFeeTierDropdown := false;
      slippage := "0.5";
      swapDeadline := "10";
    }

    /** `handleToken1Change`: the edit is kept iff it is amount text; the price follows. */
    method HandleToken1Change(value: string)
      modifies this`token1Amount, this`startingPrice
      ensures Valid()
      ensures token1Amount == if IsAmountText(value) then value else old(token1Amount)
    {
      if IsAmountText(value) || value == "" {
        token1Amount := value;
      }
      startingPrice := StartingPrice(token1Amount, token2Amount);
    }

    /** `handleToken2Change`. */
    method HandleToken2Change(value: string)
      modifies this`token2Amount, this`startingPrice
      ensures Valid()
      ensures token2Amount == if IsAmountText(value) then value else old(token2Amount)
    {
      if IsAmountText(value) || value == "" {
        token2Amount := value;
      }
      startingPrice := StartingPrice(token1Amount, token2Amount);
    }

    /** `setMaxToken1`: the sanitised balance of the first token. */
    method SetMaxToken1()
      modifies this`token1Amount, this`startingPrice
      ensures Valid()
      ensures token1Amount == SanitizeBalance(token1.balance)
      ensures DigitsAndDots(token1Amount)
    {
      token1Amount := SanitizeBalance(token1.balance);
      startingPrice := StartingPrice(token1Amount, token2Amount);
    }

    /** `setMaxToken2`. */
    method SetMaxToken2()
      modifies this`token2Amount, this`startingPrice
      ensures Valid()
      ensures token2Amount == SanitizeBalance(token2.balance)
      ensures DigitsAndDots(token2Amount)
    {
      token2Amount := SanitizeBalance(token2.balance);
      startingPrice := StartingPrice(token1Amount, token2Amount);
    }

    /** `handleReversePrice`: flips the display direction; the amounts stay. */
    method HandleReversePrice()
      modifies this`isPriceReversed
      ensures isPriceReversed == !old(isPriceReversed)
    {
      isPriceReversed := !isPriceReversed;
    }

    /** Choosing a token in the first selection modal. */
    method SelectToken1(t: Token)
      modifies this`token1
      ensures token1 == t
    {
      token1 := t;
    }

    /** Choosing a token in the second selection modal. */
    method SelectToken2(t: Token)
      modifies this`token2
      ensures token2 == t
    {
      token2 := t;
    }

    method ToggleFeeTierDropdown()
      modifies this`showFeeTierDropdown
      ensures showFeeTierDropdown == !old(showFeeTierDropdown)
    {
      showFeeTierDropdown := !showFeeTierDropdown;
    }

    /** Clicking a tier in the menu: select it and close the menu. */
    method SelectFeeTier(tier: string)
      modifies this`selectedFeeTier, this`showFeeTierDropdown
      ensures selectedFeeTier == tier && !showFeeTierDropdown
    {
      selectedFeeTier := tier;
      showFeeTierDropdown := false;
    }

    /** Typing into the custom slippage input. */
    method SetSlippageInput(text: string)
      modifies this`slippage
      ensures slippage == SlippageFilter(text)
      ensures DigitsAndDots(slippage)
    {
      slippage := SlippageFilter(text);
    }

    /** Typing into the custom deadline input. */
    method SetDeadlineInput(text: string)
      modifies this`swapDeadline
      ensures swapDeadline == DeadlineFilter(text)
      ensures AllDigits(swapDeadline)
    {
      swapDeadline := DeadlineFilter(text);
    }
  }
}

=== FILE: catalog.dfy ===
/**
 * The MemeVerse catalog query engine: a fixed filter pipeline over the
 * project list (stage, mode, listed-on-OutSwap, chain, search), a sort by a
 * chosen key and direction, and 15-per-page pagination, held in a small
 * mutable state container together with the three filter dropdowns.
 */
module Catalog {
  import opened Wrappers
  import opened Text
  import opened Seqs
  import opened Projects

  const PageSize: nat := 15

  datatype Direction = Asc | Desc {
    function Flip(): Direction {
      if Asc? then Desc else Asc
    }
  }

  /** The filter and sort criteria the engine holds. */
  datatype Criteria = Criteria(
    chain: string,        // "all" or a lower-case chain id
    stage: string,        // "genesis" | "refund" | "locked" | "unlocked"
    query: string,
    mode: string,         // "normal" | "flash"
    listedOnly: bool,
    sortOption: string,
    direction: Direction
  )

  const DefaultCriteria := Criteria("all", "genesis", "", "normal", false, "createdAt", Desc)

  // ---------------------------------------------------------------------------
  // Filtering

  /** The stage filter id to the stage name projects carry (`stageMap`). */
  function StageLabel(filter: string): (r: Option<string>)
    ensures r.Some? <==> filter in {"genesis", "refund", "locked", "unlocked"}
  {
    if filter == "genesis" then Some("Genesis")
    else if filter == "refund" then Some("Refund")
    else if filter == "locked" then Some("Locked")
    else if filter == "unlocked" then Some("Unlocked")
    else None
  }

  predicate ChainIs(p: Project, chain: string) {
    p.chain.Some? && Lower(p.chain.value) == chain
  }

  predicate SearchHit(p: Project, q: string) {
    Contains(Lower(p.name), q) || Contains(Lower(p.symbol), q) || Contains(Lower(p.description), q)
  }

  function StageKeep(c: Criteria): Project -> bool {
    (p: Project) => StageLabel(c.stage) == Some(p.stage)
  }

  function ModeKeep(c: Criteria): Project -> bool {
    (p: Project) => p.mode == c.mode
  }

  function ListedKeep(): Project -> bool {
    (p: Project) => p.listedOnOutSwap
  }

  function ChainKeep(c: Criteria): Project -> bool {
    (p: Project) => ChainIs(p, c.chain)
  }

  function SearchKeep(c: Criteria): Project -> bool {
    var q := Lower(c.query);
    (p: Project) => SearchHit(p, q)
  }

  /** Everything a project must satisfy to survive the whole filter pipeline. */
  predicate Matches(c: Criteria, p: Project) {
    && StageLabel(c.stage) == Some(p.stage)
    && (c.stage == "genesis" ==> p.mode == c.mode)
    && (c.stage == "genesis" && c.listedOnly ==> p.listedOnOutSwap)
    && (c.chain != "all" ==> ChainIs(p, c.chain))
    && (c.query != "" ==> SearchHit(p, Lower(c.query)))
  }

  function MatchKeep(c: Criteria): Project -> bool {
    (p: Project) => Matches(c, p)
  }

  /** The result of the filter pipeline, specified as one filter. */
  function Filtered(ps: seq<Project>, c: Criteria): seq<Project> {
    Filter(ps, MatchKeep(c))
  }

  /** The filter pipeline exactly as the engine runs it, one stage after another. */
  function Pipeline(ps: seq<Project>, c: Criteria): seq<Project> {
    var r1 := Filter(ps, StageKeep(c));
    var r2 := if c.stage == "genesis" then Filter(r1, ModeKeep(c)) else r1;
    var r3 := if c.stage == "genesis" && c.listedOnly then Filter(r2, ListedKeep()) else r2;
    var r4 := if c.chain != "all" then Filter(r3, ChainKeep(c)) else r3;
    if c.query != "" then Filter(r4, SearchKeep(c)) else r4
  }

  function Guarded(cond: bool, f: Project -> bool): Project -> bool {
    (p: Project) => cond ==> f(p)
  }

  /** A stage that is skipped is a filter by a predicate that always holds. */
  lemma GuardedStage(s: seq<Project>, cond: bool, f: Project -> bool)
    ensures (if cond then Filter(s, f) else s) == Filter(s, Guarded(cond, f))
  {
    if cond {
      FilterAgree(s, f, Guarded(cond, f));
    } else {
      FilterAll(s, Guarded(cond, f));
    }
  }

  /** One more guarded stage after a filter is a single filter by both predicates. */
  lemma StageFuse(ps: seq<Project>, acc: Project -> bool, cond: bool, f: Project -> bool)
    ensures (if cond then Filter(Filter(ps, acc), f) else Filter(ps, acc))
         == Filter(ps, Both(acc, Guarded(cond, f)))
  {
    GuardedStage(Filter(ps, acc), cond, f);
    FilterFuse(ps, acc, Guarded(cond, f));
  }

  /** The five stages, fused, accept a project exactly when `Matches` does. */
  function FusedKeep(c: Criteria): Project -> bool {
    var g := c.stage == "genesis";
    Both(Both(Both(Both(StageKeep(c), Guarded(g, ModeKeep(c))),
                   Guarded(g && c.listedOnly, ListedKeep())),
              Guarded(c.chain != "all", ChainKeep(c))),
         Guarded(c.query != "", SearchKeep(c)))
  }

  lemma FusedKeepIsMatches(c: Criteria, p: Project)
    ensures FusedKeep(c)(p) == Matches(c, p)
  {
  }

  /** Running the stages one after another is the single filter `Filtered`. */
  lemma {:induction false} PipelineIsFiltered(ps: seq<Project>, c: Criteria)
    ensures Pipeline(ps, c) == Filtered(ps, c)
  {
    var g := c.stage == "genesis";
    var a1 := StageKeep(c);
    var a2 := Both(a1, Guarded(g, ModeKeep(c)));
    var a3 := Both(a2, Guarded(g && c.listedOnly, ListedKeep()));
    var a4 := Both(a3, Guarded(c.chain != "all", ChainKeep(c)));
    var a5 := Both(a4, Guarded(c.query != "", SearchKeep(c)));
    var r1 := Filter(ps, a1);
    var r2 := if g then Filter(r1, ModeKeep(c)) else r1;
    StageFuse(ps, a1, g, ModeKeep(c));
    assert r2 == Filter(ps, a2);
    var r3 := if g && c.listedOnly then Filter(r2, ListedKeep()) else r2;
    StageFuse(ps, a2, g && c.listedOnly, ListedKeep());
    assert r3 == Filter(ps, a3);
    var r4 := if c.chain != "all" then Filter(r3, ChainKeep(c)) else r3;
    StageFuse(ps, a3, c.chain != "all", ChainKeep(c));
    assert r4 == Filter(ps, a4);
    var r5 := if c.query != "" then Filter(r4, SearchKeep(c)) else r4;
    StageFuse(ps, a4, c.query != "", SearchKeep(c));
    assert r5 == Filter(ps, a5);
    assert a5 == FusedKeep(c);
    forall i | 0 <= i < |ps| ensures a5(ps[i]) == MatchKeep(c)(ps[i]) {
      FusedKeepIsMatches(c, ps[i]);
    }
    FilterAgree(ps, a5, MatchKeep(c));
    assert Pipeline(ps, c) == r5;
  }

  /**
   * The filtered list is a subsequence of the projects and holds exactly the
   * projects of the list that pass every stage: the stage label, then (in
   * Genesis) the mode and, when asked, the OutSwap listing, then the chain
   * unless it is "all", then the case-insensitive search unless it is empty.
   */
  lemma FilteredSpec(ps: seq<Project>, c: Criteria)
    ensures SubseqOf(Filtered(ps, c), ps)
    ensures forall p :: p in Filtered(ps, c) <==>
      && p in ps
      && StageLabel(c.stage) == Some(p.stage)
      && (c.stage == "genesis" ==> p.mode == c.mode)
      && (c.stage == "genesis" && c.listedOnly ==> p.listedOnOutSwap)
      && (c.chain != "all" ==> p.chain.Some? && Lower(p.chain.value) == c.chain)
      && (c.query != "" ==>
            var q := Lower(c.query);
            Contains(Lower(p.name), q) || Contains(Lower(p.symbol), q) || Contains(Lower(p.description), q))
  {
    FilterIsSubseq(ps, MatchKeep(c));
    forall p | p in Filtered(ps, c) ensures Matches(c, p) {
      var r := Filtered(ps, c);
      var i :| 0 <= i < |r| && r[i] == p;
    }
  }

  // ---------------------------------------------------------------------------
  // Sorting

  /**
   * The value a sort option compares: date keys are the parsed timestamps,
   * other keys the number itself; `None` is a missing field or an option that
   * names no numeric field.
   */
  function SortValue(p: Project, option: string): (r: Option<real>)
    ensures option in {"createdAt", "raisedAmount", "population"} ==> r.Some?
    ensures option !in SortKeys ==> r.None?
  {
    match option
    case "createdAt" => Some(p.createdAt as real)
    case "genesisEndTime" => if p.genesisEndTime.Some? then Some(p.genesisEndTime.value as real) else None
    case "unlockTime" => if p.unlockTime.Some? then Some(p.unlockTime.value as real) else None
    case "raisedAmount" => Some(p.raisedAmount)
    case "population" => Some(p.population)
    case "progress" => p.progress
    case "marketCap" => p.marketCap
    case "stakingApy" => p.stakingApy
    case "treasuryFund" => p.treasuryFund
    case _ => None
  }

  const SortKeys: set<string> :=
    {"createdAt", "genesisEndTime", "unlockTime", "raisedAmount", "population",
     "progress", "marketCap", "stakingApy", "treasuryFund"}

  /**
   * The comparator does not put `b` before `a`: for "asc" `a`'s key is not
   * greater, for "desc" not smaller. A comparison with a missing value is
   * false, as in JavaScript.
   */
  predicate InOrder(x: Option<real>, y: Option<real>, d: Direction) {
    !(x.Some? && y.Some? && (if d == Asc then x.value > y.value else x.value < y.value))
  }

  /** The sort key an option selects, as a function on projects. */
  function KeyOf(option: string): Project -> Option<real> {
    (p: Project) => SortValue(p, option)
  }

  predicate SortedOn(s: seq<Project>, key: Project -> Option<real>, d: Direction) {
    forall i, j :: 0 <= i < j < |s| ==> InOrder(key(s[i]), key(s[j]), d)
  }

  predicate KeyedOn(s: seq<Project>, key: Project -> Option<real>) {
    forall i :: 0 <= i < |s| ==> key(s[i]).Some?
  }

  predicate SortedBy(s: seq<Project>, option: string, d: Direction) {
    SortedOn(s, KeyOf(option), d)
  }

  /** Every project has a value for the option. */
  predicate Keyed(s: seq<Project>, option: string) {
    KeyedOn(s, KeyOf(option))
  }

  /** On a keyed list, sorted means: keys non-decreasing for "asc", non-increasing for "desc". */
  lemma SortedMeansMonotone(s: seq<Project>, option: string, d: Direction, i: int, j: int)
    requires Keyed(s, option) && SortedBy(s, option, d)
    requires 0 <= i < j < |s|
    ensures d == Asc ==> SortValue(s[i], option).value <= SortValue(s[j], option).value
    ensures d == Desc ==> SortValue(s[i], option).value >= SortValue(s[j], option).value
  {
    assert KeyOf(option)(s[i]).Some? && KeyOf(option)(s[j]).Some?;
    assert InOrder(KeyOf(option)(s[i]), KeyOf(option)(s[j]), d);
  }

  /** Exchanges two adjacent elements; the array stays a permutation of what it was. */
  method SwapAdjacent(a: array<Project>, j: int)
    requires 0 < j < a.Length
    modifies a
    ensures a[j - 1] == old(a[j]) && a[j] == old(a[j - 1])
    ensures forall k :: 0 <= k < a.Length && k != j - 1 && k != j ==> a[k] == old(a[k])
    ensures multiset(a[..]) == multiset(old(a[..]))
  {
    a[j - 1], a[j] := a[j], a[j - 1];
  }

  /**
   * `result.sort(comparator)`: rearranges the array in place, moving each
   * element left past every element the comparator puts after it. It is
   * always a permutation; when every element has a key it is sorted by that
   * key in the chosen direction. Ties are not kept in order.
   */
  method SortOn(a: array<Project>, key: Project -> Option<real>, d: Direction)
    modifies a
    ensures multiset(a[..]) == multiset(old(a[..]))
    ensures KeyedOn(old(a[..]), key) ==> SortedOn(a[..], key, d)
  {
    ghost var keyed := KeyedOn(a[..], key);
    var i := 0;
    while i < a.Length
      invariant 0 <= i <= a.Length
      invariant multiset(a[..]) == multiset(old(a[..]))
      invariant keyed ==> forall k :: 0 <= k < a.Length ==> key(a[k]).Some?
      invariant keyed ==> forall p, q :: 0 <= p < q < i ==> InOrder(key(a[p]), key(a[q]), d)
    {
      var j := i;
      while j > 0 && !InOrder(key(a[j - 1]), key(a[j]), d)
        invariant 0 <= j <= i
        invariant multiset(a[..]) == multiset(old(a[..]))
        invariant keyed ==> forall k :: 0 <= k < a.Length ==> key(a[k]).Some?
        invariant keyed ==> forall p, q :: 0 <= p < q <= i && q != j ==> InOrder(key(a[p]), key(a[q]), d)
      {
        SwapAdjacent(a, j);
        j := j - 1;
      }
      i := i + 1;
    }
  }

  /**
   * What the engine shows as its filtered list: a rearrangement of the
   * filter result, the filter result itself when no sort option is set, and
   * sorted whenever every project has a value for the option.
   */
  ghost predicate IsView(v: seq<Project>, ps: seq<Project>, c: Criteria) {
    var f := Filtered(ps, c);
    && multiset(v) == multiset(f)
    && (c.sortOption == "" ==> v == f)
    && (c.sortOption != "" && Keyed(f, c.sortOption) ==> SortedBy(v, c.sortOption, c.direction))
  }

  /** The filter stages of the effect, run one after another on the project list. */
  method RunFilters(ps: seq<Project>, c: Criteria) returns (result: seq<Project>)
    ensures result == Filtered(ps, c)
  {
    result := Filter(ps, StageKeep(c));
    if c.stage == "genesis" {
      result := Filter(result, ModeKeep(c));
    }
    if c.stage == "genesis" && c.listedOnly {
      result := Filter(result, ListedKeep());
    }
    if c.chain != "all" {
      result := Filter(result, ChainKeep(c));
    }
    if c.query != "" {
      result := Filter(result, SearchKeep(c));
    }
    assert result == Pipeline(ps, c);
    PipelineIsFiltered(ps, c);
  }

  /** The sort step of the effect: copy the filtered list into an array and sort it when an option is set. */
  method SortView(result: seq<Project>, c: Criteria) returns (v: seq<Project>)
    ensures multiset(v) == multiset(result)
    ensures c.sortOption == "" ==> v == result
    ensures c.sortOption != "" && Keyed(result, c.sortOption) ==> SortedBy(v, c.sortOption, c.direction)
  {
    v := result;
    if c.sortOption != "" {
      var arr := new Project[|result|](i requires 0 <= i < |result| => result[i]);
      assert arr[..] == result;
      SortOn(arr, KeyOf(c.sortOption), c.direction);
      v := arr[..];
    }
  }

  // ---------------------------------------------------------------------------
  // Pagination

  /** `Math.ceil(n / 15)`: the fewest pages of 15 that hold `n` items (0 for none). */
  function TotalPages(n: nat): (r: nat)
    ensures n <= r * PageSize
    ensures r > 0 ==> (r - 1) * PageSize < n
    ensures r == 0 <==> n == 0
  {
    (n + PageSize - 1) / PageSize
  }

  /** `Array.prototype.slice` index resolution: negative counts from the end, then clamp. */
  function SliceIndex(i: int, len: nat): (r: nat)
    ensures r <= len
    ensures 0 <= i <= len ==> r == i
    ensures i > len ==> r == len
  {
    if i < 0 then (if len + i < 0 then 0 else len + i)
    else if i > len then len
    else i
  }

  /** `filteredProjects.slice((page - 1) * 15, page * 15)`. */
  function PageOf(s: seq<Project>, page: int): (r: seq<Project>)
    ensures page >= 1 ==> |r| <= PageSize
    ensures page >= 1 ==> forall i :: 0 <= i < |r| ==> (page - 1) * PageSize + i < |s| && r[i] == s[(page - 1) * PageSize + i]
    ensures page >= 1 && (page - 1) * PageSize < |s| ==> |r| == (if page * PageSize <= |s| then PageSize else |s| - (page - 1) * PageSize)
    ensures 1 <= page <= TotalPages(|s|) ==> r != []
  {
    var b := SliceIndex((page - 1) * PageSize, |s|);
    var e := SliceIndex(page * PageSize, |s|);
    if b < e then s[b..e] else []
  }

  // ---------------------------------------------------------------------------
  // Sort option tables

  datatype SortChoice = SortChoice(id: string, caption: string)

  const GenesisNormalSorts: seq<SortChoice> := [
    SortChoice("createdAt", "Creation Time"),
    SortChoice("genesisEndTime", "Genesis Endtime"),
    SortChoice("raisedAmount", "Total Raised"),
    SortChoice("population", "Population")
  ]

  const GenesisFlashSorts: seq<SortChoice> := GenesisNormalSorts + [SortChoice("progress", "Progress")]

  const LockedSorts: seq<SortChoice> := [
    SortChoice("createdAt", "Creation Time"),
    SortChoice("unlockTime", "Unlock Time"),
    SortChoice("marketCap", "Trading Volume"),
    SortChoice("stakingApy", "Staking APY"),
    SortChoice("treasuryFund", "Treasury Fund")
  ]

  const UnlockedSorts: seq<SortChoice> := [
    SortChoice("createdAt", "Creation Time"),
    SortChoice("marketCap", "Trading Volume"),
    SortChoice("stakingApy", "Staking APY")
  ]

  const DefaultSortLabel := "Creation Time"

  /**
   * The sort options offered for a stage and mode: none for "refund" or an
   * unknown stage or mode; "progress" only for Genesis in flash mode; every
   * offered id is a sortable key, and "Creation Time" always comes first.
   */
  function SortOptions(stage: string, mode: string): (r: seq<SortChoice>)
    ensures stage == "refund" ==> r == []
    ensures r != [] <==>
      (stage == "genesis" && mode in {"normal", "flash"}) || stage == "locked" || stage == "unlocked"
    ensures r != [] ==> r[0] == SortChoice("createdAt", DefaultSortLabel)
    ensures forall i :: 0 <= i < |r| ==> r[i].id in SortKeys
    ensures (exists i :: 0 <= i < |r| && r[i].id == "progress") <==> stage == "genesis" && mode == "flash"
  {
    if stage == "genesis" then
      if mode == "normal" then GenesisNormalSorts
      else if mode == "flash" then
        assert GenesisFlashSorts[4].id == "progress";
        GenesisFlashSorts
      else []
    else if stage == "locked" then LockedSorts
    else if stage == "unlocked" then UnlockedSorts
    else []
  }

  /** `options.find(opt => opt.id === id)?.label`: the label of the first option with that id. */
  function FindLabel(opts: seq<SortChoice>, id: string): (r: Option<string>)
    ensures r.None? <==> forall i :: 0 <= i < |opts| ==> opts[i].id != id
    ensures r.Some? ==> exists i :: 0 <= i < |opts| && opts[i].id == id && opts[i].caption == r.value &&
                                    forall k :: 0 <= k < i ==> opts[k].id != id
  {
    if opts == [] then None
    else if opts[0].id == id then Some(opts[0].caption)
    else
      var r := FindLabel(opts[1..], id);
      assert forall i :: 1 <= i < |opts| ==> opts[i] == opts[1..][i - 1];
      r
  }

  /**
   * The label of the active sort option among those offered now, or
   * "Creation Time" when the option is not offered (e.g. in Refund).
   */
  function CurrentSortLabel(stage: string, mode: string, option: string): (r: string)
    ensures (forall i :: 0 <= i < |SortOptions(stage, mode)| ==> SortOptions(stage, mode)[i].id != option) ==>
              r == DefaultSortLabel
    ensures (exists i :: 0 <= i < |SortOptions(stage, mode)| && SortOptions(stage, mode)[i].id == option) ==>
              exists i :: 0 <= i < |SortOptions(stage, mode)| && SortOptions(stage, mode)[i] == SortChoice(option, r)
    ensures stage == "refund" ==> r == DefaultSortLabel
    ensures option == "createdAt" ==> r == DefaultSortLabel
  {
    FindLabel(SortOptions(stage, mode), option).GetOr(DefaultSortLabel)
  }

  // ---------------------------------------------------------------------------
  // The state container

  datatype Menu = ChainMenu | StageMenu | SortMenu

  class Engine {
    var projects: seq<Project>
    var criteria: Criteria
    var filtered: seq<Project>
    var currentPage: int
    var isChainDropdownOpen: bool
    var isStageDropdownOpen: bool
    var isSortDropdownOpen: bool
    var activeDropdown: Option<Menu>

    /** Each open flag is set exactly when `activeDropdown` names its menu, so at most one is open. */
    predicate DropdownsAgree()
      reads this
    {
      && (isChainDropdownOpen <==> activeDropdown == Some(ChainMenu))
      && (isStageDropdownOpen <==> activeDropdown == Some(StageMenu))
      && (isSortDropdownOpen <==> activeDropdown == Some(SortMenu))
    }

    ghost predicate Valid()
      reads this
    {
      && IsView(filtered, projects, criteria)
      && 1 <= currentPage
      && (currentPage == 1 || currentPage <= TotalPages(|filtered|))
      && DropdownsAgree()
    }

    constructor ()
      ensures Valid()
      ensures projects == [] && filtered == [] && criteria == DefaultCriteria && currentPage == 1
      ensures activeDropdown == None
    {
      projects := [];
      criteria := DefaultCriteria;
      filtered := [];
      currentPage := 1;
      isChainDropdownOpen := false;
      isStageDropdownOpen := false;
      isSortDropdownOpen := false;
      activeDropdown := None;
    }

    /** `currentProjects`: the slice of the filtered list on the current page. */
    function CurrentProjects(): (r: seq<Project>)
      reads this
      requires Valid()
      ensures |r| <= PageSize
      ensures filtered != [] ==> r != []
      ensures forall i :: 0 <= i < |r| ==>
                (currentPage - 1) * PageSize + i < |filtered| && r[i] == filtered[(currentPage - 1) * PageSize + i]
    {
      PageOf(filtered, currentPage)
    }

    /** The filter effect: rerun the pipeline, sort, and go back to page 1. */
    method Recompute()
      modifies this`filtered, this`currentPage
      ensures IsView(filtered, projects, criteria)
      ensures currentPage == 1
    {
      var result := RunFilters(projects, criteria);
      filtered := SortView(result, criteria);
      currentPage := 1;
    }

    /** A criteria setter: a new value reruns the effect; the same value changes nothing. */
    method UpdateCriteria(c: Criteria)
      requires Valid()
      modifies this`criteria, this`filtered, this`currentPage
      ensures Valid()
      ensures criteria == c
      ensures c != old(criteria) ==> currentPage == 1
      ensures c == old(criteria) ==> filtered == old(filtered) && currentPage == old(currentPage)
    {
      if c != criteria {
        criteria := c;
        Recompute();
      }
    }

    method SetActiveChainFilter(chain: string)
      requires Valid()
      modifies this`criteria, this`filtered, this`currentPage
      ensures Valid()
      ensures criteria == old(criteria).(chain := chain)
      ensures chain != old(criteria.chain) ==> currentPage == 1
      ensures chain == old(criteria.chain) ==> filtered == old(filtered) && currentPage == old(currentPage)
    {
      UpdateCriteria(criteria.(chain := chain));
    }

    method SetActiveStageFilter(stage: string)
      requires Valid()
      modifies this`criteria, this`filtered, this`currentPage
      ensures Valid()
      ensures criteria == old(criteria).(stage := stage)
      ensures stage != old(criteria.stage) ==> currentPage == 1
      ensures stage == old(criteria.stage) ==> filtered == old(filtered) && currentPage == old(currentPage)
    {
      UpdateCriteria(criteria.(stage := stage));
    }

    method SetSearchQuery(query: string)
      requires Valid()
      modifies this`criteria, this`filtered, this`currentPage
      ensures Valid()
      ensures criteria == old(criteria).(query := query)
      ensures query != old(criteria.query) ==> currentPage == 1
      ensures query == old(criteria.query) ==> filtered == old(filtered) && currentPage == old(currentPage)
    {
      UpdateCriteria(criteria.(query := query));
    }

    method SetSelectedMode(mode: string)
      requires Valid()
      modifies this`criteria, this`filtered, this`currentPage
      ensures Valid()
      ensures criteria == old(criteria).(mode := mode)
      ensures mode != old(criteria.mode) ==> currentPage == 1
      ensures mode == old(criteria.mode) ==> filtered == old(filtered) && currentPage == old(currentPage)
    {
      UpdateCriteria(criteria.(mode := mode));
    }

    method SetShowListedOnOutSwap(show: bool)
      requires Valid()
      modifies this`criteria, this`filtered, this`currentPage
      ensures Valid()
      ensures criteria == old(criteria).(listedOnly := show)
      ensures show != old(criteria.listedOnly) ==> currentPage == 1
      ensures show == old(criteria.listedOnly) ==> filtered == old(filtered) && currentPage == old(currentPage)
    {
      UpdateCriteria(criteria.(listedOnly := show));
    }

    method SetSortOption(option: string)
      requires Valid()
      modifies this`criteria, this`filtered, this`currentPage
      ensures Valid()
      ensures criteria == old(criteria).(sortOption := option)
      ensures option != old(criteria.sortOption) ==> currentPage == 1
      ensures option == old(criteria.sortOption) ==> filtered == old(filtered) && currentPage == old(currentPage)
    {
      UpdateCriteria(criteria.(sortOption := option));
    }

    /** Flips the direction; the direction always changes, so the page always resets. */
    method ToggleSortDirection()
      requires Valid()
      modifies this`criteria, this`filtered, this`currentPage
      ensures Valid()
      ensures criteria == old(criteria).(direction := old(criteria.direction).Flip())
      ensures criteria.direction != old(criteria.direction)
      ensures criteria.direction.Flip() == old(criteria.direction)
      ensures currentPage == 1
    {
      UpdateCriteria(criteria.(direction := criteria.direction.Flip()));
    }

    /** Loading a new project list reruns the effect (when the list differs). */
    method SetProjects(ps: seq<Project>)
      requires Valid()
      modifies this`projects, this`filtered, this`currentPage
      ensures Valid()
      ensures projects == ps
      ensures ps != old(projects) ==> currentPage == 1
      ensures ps == old(projects) ==> filtered == old(filtered) && currentPage == old(currentPage)
    {
      if ps != projects {
        projects := ps;
        Recompute();
      }
    }

    /**
     * Moves to page `k` when `1 <= k <= totalPages`, answering whether the
     * view is to scroll to the top; any other `k` changes nothing.
     */
    method HandlePageChange(k: int) returns (scrollToTop: bool)
      requires Valid()
      modifies this`currentPage
      ensures Valid()
      ensures scrollToTop <==> 1 <= k <= TotalPages(|filtered|)
      ensures currentPage == if scrollToTop then k else old(currentPage)
    {
      scrollToTop := 1 <= k <= TotalPages(|filtered|);
      if scrollToTop {
        currentPage := k;
      }
    }

    /**
     * `toggleChainDropdown`, `toggleStageDropdown`, `toggleSortDropdown`:
     * closes the menu when it is the active one, otherwise opens it and
     * closes the other two.
     */
    method ToggleDropdown(m: Menu)
      requires Valid()
      modifies this`activeDropdown, this`isChainDropdownOpen, this`isStageDropdownOpen, this`isSortDropdownOpen
      ensures Valid()
      ensures activeDropdown == if old(activeDropdown) == Some(m) then None else Some(m)
    {
      if activeDropdown == Some(m) {
        activeDropdown := None;
        match m
        case ChainMenu => isChainDropdownOpen := false;
        case StageMenu => isStageDropdownOpen := false;
        case SortMenu => isSortDropdownOpen := false;
      } else {
        activeDropdown := Some(m);
        isChainDropdownOpen := m == ChainMenu;
        isStageDropdownOpen := m == StageMenu;
        isSortDropdownOpen := m == SortMenu;
      }
    }

    method CloseAllDropdowns()
      requires Valid()
      modifies this`activeDropdown, this`isChainDropdownOpen, this`isStageDropdownOpen, this`isSortDropdownOpen
      ensures Valid()
      ensures activeDropdown == None && !isChainDropdownOpen && !isStageDropdownOpen && !isSortDropdownOpen
    {
      activeDropdown := None;
      isChainDropdownOpen := false;
      isStageDropdownOpen := false;
      isSortDropdownOpen := false;
    }
  }
}

=== FILE: create_form.dfy ===
/**
 * The token-creation form of the MemeVerse "create" page: its field record,
 * the digit-only duration inputs and their range validation, the omni-chain
 * toggle, the modal transitions and the ordered submit gate.
 */
module CreateForm {
  import opened Wrappers
  import opened Text
  import opened Seqs
  import opened Numbers

  const MinGenesisDuration: real := 1.0
  const MaxGenesisDuration: real := 3.0
  const MinLockupDays: real := 1.0
  const MaxLockupDays: real := 365.0

  const GenesisKey := "genesisDuration"
  const LockKey := "liquidityLockDuration"

  /** The required fields, in the order the submit gate checks them. */
  const RequiredFields: seq<string> := ["name", "symbol", GenesisKey, LockKey, "description"]

  datatype Modal = NetworkModal | OmniChainsModal | FundTypeModal

  /** What a submit attempt ends in; focus and scrolling are the view's business. */
  datatype SubmitOutcome =
    | FocusEmpty(id: string)   // the first empty required field whose element exists
    | GenesisOutOfRange
    | LockOutOfRange
    | Submitting

  /** A field's text; a name the record does not hold reads as empty. */
  function Field(fields: map<string, string>, name: string): string {
    if name in fields then fields[name] else ""
  }

  /** The only texts a duration input accepts: empty or ASCII digits. */
  predicate DurationText(v: string) {
    v == "" || AllDigits(v)
  }

  /** Whether an edit of field `name` to `value` is stored. */
  predicate Accepts(name: string, value: string) {
    (name == GenesisKey || name == LockKey) ==> DurationText(value)
  }

  /**
   * The validation effect: an empty duration is valid, any other is valid
   * when `Number(value)` lies in `[lo, hi]` (NaN lies nowhere).
   */
  predicate EffectValid(v: string, lo: real, hi: real) {
    v == "" || (NumberOf(v).Some? && lo <= NumberOf(v).value <= hi)
  }

  /** The submit check: `Number(value) < lo || Number(value) > hi` (false for NaN, `Number("")` is 0). */
  predicate OutOfRange(v: string, lo: real, hi: real) {
    NumberOf(v).Some? && (NumberOf(v).value < lo || NumberOf(v).value > hi)
  }

  /**
   * On a non-empty digit string the effect and the submit check agree; on
   * the empty string the effect says valid while submit sees 0, which is out
   * of any range starting above 0.
   */
  lemma {:induction false} ChecksAgree(v: string, lo: real, hi: real)
    requires DurationText(v)
    ensures v != "" ==> (EffectValid(v, lo, hi) <==> !OutOfRange(v, lo, hi))
    ensures v == "" ==> EffectValid(v, lo, hi) && (OutOfRange(v, lo, hi) <==> lo > 0.0 || hi < 0.0)
  {
    if v != "" {
      assert NumberOf(v) == Some(DigitsValue(v) as real);
    }
  }

  /**
   * A duration field holds "" or digits, and its flag is set when the effect
   * found it valid and clear when the submit check finds it out of range.
   */
  ghost predicate KeyValid(fields: map<string, string>, key: string, flag: bool, lo: real, hi: real) {
    var v := Field(fields, key);
    && DurationText(v)
    && (flag ==> EffectValid(v, lo, hi))
    && (!flag ==> OutOfRange(v, lo, hi))
  }

  /** Editing another field leaves a duration field and its flag as they were. */
  lemma KeyUntouched(fields: map<string, string>, key: string, flag: bool, lo: real, hi: real, name: string, value: string)
    requires KeyValid(fields, key, flag, lo, hi) && name != key
    ensures KeyValid(fields[name := value], key, flag, lo, hi)
  {
    assert Field(fields[name := value], key) == Field(fields, key);
  }

  /** Storing a duration and rerunning its effect when it changed keeps the field valid. */
  lemma KeySet(fields: map<string, string>, key: string, flag: bool, lo: real, hi: real, value: string)
    requires KeyValid(fields, key, flag, lo, hi) && DurationText(value)
    ensures KeyValid(fields[key := value], key,
                     if value != Field(fields, key) then EffectValid(value, lo, hi) else flag, lo, hi)
  {
    FreshFlag(value, lo, hi);
  }

  /** The flag the effect computes for a digit string is one `Valid` allows. */
  lemma FreshFlag(v: string, lo: real, hi: real)
    requires DurationText(v)
    ensures EffectValid(v, lo, hi) || OutOfRange(v, lo, hi)
  {
    ChecksAgree(v, lo, hi);
  }

  // ---------------------------------------------------------------------------
  // Omni chains

  function NotEqual(c: string): string -> bool {
    (x: string) => x != c
  }

  /**
   * `handleOmniChainToggle`: drop every occurrence of `c` when present, else
   * append it. Dropping keeps every other chain as often as it was there and
   * in its order, so the count shown as "N chains selected" falls by the
   * occurrences of `c`.
   */
  function ToggleMember(s: seq<string>, c: string): (r: seq<string>)
    ensures c in s ==> c !in r
    ensures c !in s ==> r == s + [c]
    ensures forall x :: x != c ==> (x in r <==> x in s)
    ensures c in s ==> multiset(r) == multiset(s)[c := 0] && SubseqOf(r, s)
    ensures |r| == if c in s then |s| - multiset(s)[c] else |s| + 1
  {
    if c in s then
      var r := Filter(s, NotEqual(c));
      assert forall i :: 0 <= i < |s| && s[i] != c ==> NotEqual(c)(s[i]);
      DropCounts(s, c);
      FilterIsSubseq(s, NotEqual(c));
      r
    else s + [c]
  }

  /** Filtering out `c` removes all its occurrences and nothing else. */
  lemma DropCounts(s: seq<string>, c: string)
    ensures multiset(Filter(s, NotEqual(c))) == multiset(s)[c := 0]
    ensures |Filter(s, NotEqual(c))| == |s| - multiset(s)[c]
  {
    var r := Filter(s, NotEqual(c));
    FilterCounts(s, NotEqual(c));
    forall x
      ensures multiset(r)[x] == multiset(s)[c := 0][x]
    {
      if x !in s {
        assert x !in r;
      }
    }
    assert multiset(r) == multiset(s)[c := 0];
    assert |multiset(s)| == |multiset(s)[c := 0]| + multiset(s)[c];
  }

  /** Toggling the same chain twice gives back the same set of chains. */
  lemma ToggleTwice(s: seq<string>, c: string)
    ensures forall x :: x in ToggleMember(ToggleMember(s, c), c) <==> x in s
  {
    var once := ToggleMember(s, c);
    if c in s {
      assert c in once + [c];
    } else {
      assert c in once;
    }
  }

  // ---------------------------------------------------------------------------
  // Submit gate

  /** The field `id` is empty and its element is on the page. */
  predicate Blocks(fields: map<string, string>, present: set<string>, id: string) {
    Field(fields, id) == "" && id in present
  }

  /**
   * The first id of `ids` whose field is empty and whose element is on the
   * page; an empty field with no element is passed over.
   */
  function FirstBlockingIn(ids: seq<string>, fields: map<string, string>, present: set<string>): (r: Option<string>)
    ensures r.None? <==> forall i :: 0 <= i < |ids| ==> !Blocks(fields, present, ids[i])
    ensures r.Some? ==> exists i :: 0 <= i < |ids| && ids[i] == r.value && Blocks(fields, present, ids[i]) &&
                          forall k :: 0 <= k < i ==> !Blocks(fields, present, ids[k])
  {
    if ids == [] then None
    else if Blocks(fields, present, ids[0]) then Some(ids[0])
    else
      var r := FirstBlockingIn(ids[1..], fields, present);
      assert forall i :: 1 <= i < |ids| ==> ids[i] == ids[1..][i - 1];
      r
  }

  /** The outcome of a submit attempt on the given fields, as a function. */
  function SubmitDecision(fields: map<string, string>, present: set<string>): SubmitOutcome {
    var blocking := FirstBlockingIn(RequiredFields, fields, present);
    if blocking.Some? then FocusEmpty(blocking.value)
    else if OutOfRange(Field(fields, GenesisKey), MinGenesisDuration, MaxGenesisDuration) then GenesisOutOfRange
    else if OutOfRange(Field(fields, LockKey), MinLockupDays, MaxLockupDays) then LockOutOfRange
    else Submitting
  }

  /**
   * A submission goes ahead only with both durations non-empty digit
   * strings in range (1 to 3 days, 1 to 365 days); a genesis error is
   * reported before a lock error.
   */
  lemma {:induction false} SubmitGate(fields: map<string, string>, present: set<string>)
    requires DurationText(Field(fields, GenesisKey)) && DurationText(Field(fields, LockKey))
    ensures SubmitDecision(fields, present) == Submitting ==>
      var g := Field(fields, GenesisKey);
      var l := Field(fields, LockKey);
      && g != "" && l != ""
      && MinGenesisDuration <= DigitsValue(g) as real <= MaxGenesisDuration
      && MinLockupDays <= DigitsValue(l) as real <= MaxLockupDays
    ensures SubmitDecision(fields, present) == LockOutOfRange ==>
      !OutOfRange(Field(fields, GenesisKey), MinGenesisDuration, MaxGenesisDuration)
  {
    var g := Field(fields, GenesisKey);
    var l := Field(fields, LockKey);
    if SubmitDecision(fields, present) == Submitting {
      assert NumberOf("") == Some(0.0);
      assert g != "" && l != "";
      assert NumberOf(g) == Some(DigitsValue(g) as real);
      assert NumberOf(l) == Some(DigitsValue(l) as real);
    }
  }

  /** The form state: `formData`, `validation` and the `ui` part that is not a file. */
  class Form {
    var isFlashGenesis: bool
    var fields: map<string, string>
    var omniChains: seq<string>
    var genesisValid: bool
    var lockValid: bool
    var isSubmitting: bool
    var currentModal: Option<Modal>

    /**
     * The duration fields only ever hold digits; a validity flag is true only
     * when the effect would say so, and false only when the value is one the
     * submit check rejects.
     */
    ghost predicate Valid()
      reads this
    {
      && KeyValid(fields, GenesisKey, genesisValid, MinGenesisDuration, MaxGenesisDuration)
      && KeyValid(fields, LockKey, lockValid, MinLockupDays, MaxLockupDays)
    }

    constructor ()
      ensures Valid()
      ensures fields == map[
        "name" := "", "symbol" := "", GenesisKey := "", LockKey := "",
        "genesieFundType" := "UETH", "governanceChain" := "Binance Smart Chain",
        "description" := "", "website" := "", "x" := "", "discord" := "", "telegram" := ""]
      ensures omniChains == [] && !isFlashGenesis && !isSubmitting && currentModal == None
      ensures genesisValid && lockValid
    {
      isFlashGenesis := false;
      fields := map[
        "name" := "", "symbol" := "", GenesisKey := "", LockKey := "",
        "genesieFundType" := "UETH", "governanceChain" := "Binance Smart Chain",
        "description" := "", "website" := "", "x" := "", "discord" := "", "telegram" := ""];
      omniChains := [];
      genesisValid := true;
      lockValid := true;
      isSubmitting := false;
      currentModal := None;
    }

    /**
     * `handleChange` followed by the validation effects: a duration field
     * takes only "" or digits (anything else leaves the record as it was);
     * any other field takes the value verbatim. When a duration actually
     * changes, its effect recomputes that field's flag and no other.
     */
    method HandleChange(name: string, value: string)
      requires Valid()
      modifies this`fields, this`genesisValid, this`lockValid
      ensures Valid()
      ensures fields == if Accepts(name, value) then old(fields)[name := value] else old(fields)
      ensures genesisValid == if Accepts(name, value) && name == GenesisKey && value != Field(old(fields), GenesisKey)
                              then EffectValid(value, MinGenesisDuration, MaxGenesisDuration) else old(genesisValid)
      ensures lockValid == if Accepts(name, value) && name == LockKey && value != Field(old(fields), LockKey)
                           then EffectValid(value, MinLockupDays, MaxLockupDays) else old(lockValid)
    {
      if name == GenesisKey {
        if DurationText(value) {
          SetGenesisDuration(value);
        }
      } else if name == LockKey {
        if DurationText(value) {
          SetLockDuration(value);
        }
      } else {
        SetOtherField(name, value);
      }
    }

    /** A digit-only genesis duration is stored; when it changed, its effect reruns. */
    method SetGenesisDuration(value: string)
      requires Valid() && DurationText(value)
      modifies this`fields, this`genesisValid
      ensures Valid()
      ensures fields == old(fields)[GenesisKey := value]
      ensures genesisValid == if value != Field(old(fields), GenesisKey)
                              then EffectValid(value, MinGenesisDuration, MaxGenesisDuration) else old(genesisValid)
    {
      var previous := Field(fields, GenesisKey);
      KeySet(fields, GenesisKey, genesisValid, MinGenesisDuration, MaxGenesisDuration, value);
      KeyUntouched(fields, LockKey, lockValid, MinLockupDays, MaxLockupDays, GenesisKey, value);
      fields := fields[GenesisKey := value];
      if value != previous {
        genesisValid := EffectValid(value, MinGenesisDuration, MaxGenesisDuration);
      }
    }

    /** A digit-only lock duration is stored; when it changed, its effect reruns. */
    method SetLockDuration(value: string)
      requires Valid() && DurationText(value)
      modifies this`fields, this`lockValid
      ensures Valid()
      ensures fields == old(fields)[LockKey := value]
      ensures lockValid == if value != Field(old(fields), LockKey)
                           then EffectValid(value, MinLockupDays, MaxLockupDays) else old(lockValid)
    {
      var previous := Field(fields, LockKey);
      KeySet(fields, LockKey, lockValid, MinLockupDays, MaxLockupDays, value);
      KeyUntouched(fields, GenesisKey, genesisValid, MinGenesisDuration, MaxGenesisDuration, LockKey, value);
      fields := fields[LockKey := value];
      if value != previous {
        lockValid := EffectValid(value, MinLockupDays, MaxLockupDays);
      }
    }

    /** Any field other than the two durations takes the value verbatim. */
    method SetOtherField(name: string, value: string)
      requires Valid() && name != GenesisKey && name != LockKey
      modifies this`fields
      ensures Valid()
      ensures fields == old(fields)[name := value]
    {
      KeyUntouched(fields, GenesisKey, genesisValid, MinGenesisDuration, MaxGenesisDuration, name, value);
      KeyUntouched(fields, LockKey, lockValid, MinLockupDays, MaxLockupDays, name, value);
      fields := fields[name := value];
    }

    /** `toggleFlashGenesis`: flips the flag and nothing else. */
    method ToggleFlashGenesis()
      modifies this`isFlashGenesis
      ensures isFlashGenesis == !old(isFlashGenesis)
    {
      isFlashGenesis := !isFlashGenesis;
    }

    /** `handleOmniChainToggle`. */
    method ToggleOmniChain(c: string)
      modifies this`omniChains
      ensures omniChains == ToggleMember(old(omniChains), c)
      ensures c in omniChains <==> c !in old(omniChains)
      ensures forall x :: x != c ==> (x in omniChains <==> x in old(omniChains))
      ensures |omniChains| == if c in old(omniChains) then |old(omniChains)| - multiset(old(omniChains))[c] else |old(omniChains)| + 1
    {
      omniChains := ToggleMember(omniChains, c);
    }

    method OpenModal(t: Modal)
      modifies this`currentModal
      ensures currentModal == Some(t)
    {
      currentModal := Some(t);
    }

    method CloseModal()
      modifies this`currentModal
      ensures currentModal == None
    {
      currentModal := None;
    }

    /** `handleNetworkSelect`: sets the governance chain and closes the modal. */
    method HandleNetworkSelect(network: string)
      requires Valid()
      modifies this`fields, this`currentModal
      ensures Valid()
      ensures fields == old(fields)["governanceChain" := network]
      ensures currentModal == None
    {
      fields := fields["governanceChain" := network];
      currentModal := None;
    }

    /** `handleFundTypeSelect`: sets the fund type (key `genesieFundType`) and closes the modal. */
    method HandleFundTypeSelect(fundType: string)
      requires Valid()
      modifies this`fields, this`currentModal
      ensures Valid()
      ensures fields == old(fields)["genesieFundType" := fundType]
      ensures currentModal == None
    {
      fields := fields["genesieFundType" := fundType];
      currentModal := None;
    }

    /**
     * The required-field loop of `handleSubmit`: the first required field
     * that is empty and has an element on the page (`present`).
     */
    method FindBlockingField(present: set<string>) returns (r: Option<string>)
      ensures r == FirstBlockingIn(RequiredFields, fields, present)
    {
      var i := 0;
      while i < |RequiredFields|
        invariant 0 <= i <= |RequiredFields|
        invariant FirstBlockingIn(RequiredFields, fields, present) == FirstBlockingIn(RequiredFields[i..], fields, present)
      {
        var id := RequiredFields[i];
        assert RequiredFields[i..] == [id] + RequiredFields[i + 1..];
        if Blocks(fields, present, id) {
          return Some(id);
        }
        i := i + 1;
      }
      return None;
    }

    /**
     * `handleSubmit`: stops at the first blocking field, then at an
     * out-of-range genesis duration (clearing only its flag), then at an
     * out-of-range lock duration (clearing only its flag); only when all
     * pass does the form start submitting.
     */
    method Submit(present: set<string>) returns (outcome: SubmitOutcome)
      requires Valid()
      modifies this`genesisValid, this`lockValid, this`isSubmitting
      ensures Valid()
      ensures outcome == SubmitDecision(fields, present)
      ensures genesisValid == (old(genesisValid) && outcome != GenesisOutOfRange)
      ensures lockValid == (old(lockValid) && outcome != LockOutOfRange)
      ensures isSubmitting == (old(isSubmitting) || outcome == Submitting)
    {
      var blocking := FindBlockingField(present);
      if blocking.Some? {
        return FocusEmpty(blocking.value);
      }
      if OutOfRange(Field(fields, GenesisKey), MinGenesisDuration, MaxGenesisDuration) {
        genesisValid := false;
        return GenesisOutOfRange;
      }
      if OutOfRange(Field(fields, LockKey), MinLockupDays, MaxLockupDays) {
        lockValid := false;
        return LockOutOfRange;
      }
      isSubmitting := true;
      return Submitting;
    }

    /** The simulated API call finishing: submitting ends (navigation is the caller's). */
    method SubmitTimerFired()
      modifies this`isSubmitting
      ensures !isSubmitting
    {
      isSubmitting := false;
    }
  }
}

=== FILE: debounce.dfy ===
/**
 * `useDebouncedState`: an immediate value that follows every `setValue` at
 * once, and a debounced value that follows it only when no further
 * `setValue` came within `delay` milliseconds. The timer is an optional
 * pending slot holding the value it will deliver and when it is due; the
 * clock is passed in.
 */
module Debounce {
  import opened Wrappers

  const DefaultDelay: int := 300

  /** A scheduled `setDebouncedValue(value)` that fires at `due`. */
  datatype Timer<T> = Timer(value: T, due: int)

  datatype Debounced<T> = Debounced(immediate: T, debounced: T, pending: Option<Timer<T>>)

  /** The pending timer, when there is one, delivers the current immediate value. */
  predicate Coherent<T(==)>(s: Debounced<T>) {
    s.pending.Some? ==> s.pending.value.value == s.immediate
  }

  /** A timer is pending and due at `now`. */
  predicate Due<T>(s: Debounced<T>, now: int) {
    s.pending.Some? && now >= s.pending.value.due
  }

  /** Mounting: both values are the initial value and no timer is pending. */
  function Init<T>(initial: T): (s: Debounced<T>)
    ensures s.immediate == initial && s.debounced == initial && s.pending.None?
  {
    Debounced(initial, initial, None)
  }

  /**
   * `setValue(v)`: the immediate value becomes `v` at once; any pending
   * timer is cancelled and one that will deliver `v` after `delay` replaces
   * it; the debounced value stays.
   */
  function SetStep<T(==)>(s: Debounced<T>, v: T, now: int, delay: int): (r: Debounced<T>)
    ensures r.immediate == v && r.debounced == s.debounced
    ensures r.pending == Some(Timer(v, now + delay))
    ensures Coherent(r)
  {
    Debounced(v, s.debounced, Some(Timer(v, now + delay)))
  }

  /**
   * The clock reaching `now`: a due timer sets the debounced value to the
   * value it carries and empties the slot; otherwise nothing changes.
   */
  function FireStep<T>(s: Debounced<T>, now: int): (r: Debounced<T>)
    ensures Due(s, now) ==> r == Debounced(s.immediate, s.pending.value.value, None)
    ensures !Due(s, now) ==> r == s
  {
    if Due(s, now) then Debounced(s.immediate, s.pending.value.value, None) else s
  }

  /** Unmounting cancels the pending timer. */
  function UnmountStep<T>(s: Debounced<T>): (r: Debounced<T>)
    ensures r.pending.None? && r.immediate == s.immediate && r.debounced == s.debounced
  {
    s.(pending := None)
  }

  /** Every transition keeps the pending timer delivering the latest value. */
  lemma CoherentPreserved<T>(s: Debounced<T>, v: T, now: int, delay: int)
    requires Coherent(s)
    ensures Coherent(SetStep(s, v, now, delay))
    ensures Coherent(FireStep(s, now))
    ensures Coherent(UnmountStep(s))
  {
  }

  /** A fire delivers the argument of the most recent `setValue`, and the two values then agree. */
  lemma FireDeliversLatest<T>(s: Debounced<T>, now: int)
    requires Coherent(s) && Due(s, now)
    ensures FireStep(s, now).debounced == s.immediate
    ensures FireStep(s, now).debounced == FireStep(s, now).immediate
  {
  }

  /**
   * Two quick `setValue`s: before the second one's delay has passed nothing
   * is delivered, even when the first one's delay has; afterwards the second
   * value is.
   */
  lemma SecondSetCancelsFirst<T>(s: Debounced<T>, a: T, b: T, t1: int, t2: int, now: int, delay: int)
    requires t1 <= t2
    ensures var s2 := SetStep(SetStep(s, a, t1, delay), b, t2, delay);
      && (now < t2 + delay ==> FireStep(s2, now).debounced == s.debounced)
      && (now >= t2 + delay ==> FireStep(s2, now).debounced == b)
  {
  }

  /** After unmounting, no clock reading changes the debounced value. */
  lemma NothingAfterUnmount<T>(s: Debounced<T>, now: int)
    ensures FireStep(UnmountStep(s), now) == UnmountStep(s)
  {
  }

  /** The hook instance: its two state cells and the timer reference. */
  class DebouncedState<T(==)> {
    var immediate: T
    var debounced: T
    var pending: Option<Timer<T>>
    const delay: int

    function State(): Debounced<T>
      reads this
    {
      Debounced(immediate, debounced, pending)
    }

    ghost predicate Valid()
      reads this
    {
      Coherent(State())
    }

    constructor (initial: T, delay: int)
      ensures Valid()
      ensures State() == Init(initial) && this.delay == delay
    {
      immediate := initial;
      debounced := initial;
      pending := None;
      this.delay := delay;
    }

    method SetValue(v: T, now: int)
      requires Valid()
      modifies this
      ensures Valid()
      ensures State() == SetStep(old(State()), v, now, delay)
    {
      immediate := v;
      pending := Some(Timer(v, now + delay));
    }

    /** The clock reaching `now`; answers whether the timer fired. */
    method Fire(now: int) returns (fired: bool)
      requires Valid()
      modifies this
      ensures Valid()
      ensures fired == Due(old(State()), now)
      ensures State() == FireStep(old(State()), now)
      ensures fired ==> debounced == immediate
    {
      fired := pending.Some? && now >= pending.value.due;
      if fired {
        debounced := pending.value.value;
        pending := None;
      }
    }

    method Unmount()
      requires Valid()
      modifies this
      ensures Valid()
      ensures State() == UnmountStep(old(State()))
    {
      pending := None;
    }
  }
}

=== FILE: format.dfy ===
/**
 * The formatting helpers shared by the pages: address truncation and the
 * tier a number falls in when it is shown as currency, dollars, a market
 * cap or a percentage. The digits a number is printed with are not
 * modelled: a `Shown` value records which rendering the helper picks and
 * the number it renders.
 */
module Format {
  import opened Wrappers
  import opened Numbers

  /** The rendering a helper chooses. */
  datatype Shown =
    | Text(s: string)                                           // a literal string
    | Fixed(prefix: string, value: real, digits: nat, suffix: string) // `toFixed(digits)` between prefix and suffix
    | Exponential(value: real, digits: nat)                     // `toExponential(digits)`
    | Grouped(value: real, maxDigits: nat)                      // `toLocaleString("en-US", ...)`
    | Plain(value: real)                                        // `${value}`

  // ---------------------------------------------------------------------------
  // Addresses

  function Min(a: int, b: int): int {
    if a <= b then a else b
  }

  /**
   * `formatAddress`: "" for a missing or empty address, otherwise the first
   * six characters, "...", and the last four (`substring` clamps, so short
   * addresses give shorter pieces).
   */
  function FormatAddress(address: Option<string>): (r: string)
    ensures address.None? || address.value == "" ==> r == ""
    ensures address.Some? && address.value != "" ==>
      var a := address.value;
      var head := Min(|a|, 6);
      var tail := Min(|a|, 4);
      && |r| == head + 3 + tail
      && r[..head] == a[..head]
      && r[head..head + 3] == "..."
      && r[head + 3..] == a[|a| - tail..]
  {
    if address.None? || address.value == "" then ""
    else
      var a := address.value;
      var start := if |a| - 4 < 0 then 0 else |a| - 4;
      a[..Min(|a|, 6)] + "..." + a[start..]
  }

  // ---------------------------------------------------------------------------
  // Currency

  /** The tier `formatCurrency` picks for a parsed number. */
  function CurrencyShown(num: real): (r: Shown)
    ensures r.Exponential? <==> num < 0.000001
    ensures r.Fixed? && r.digits == 6 <==> 0.000001 <= num < 0.001
    ensures r.Fixed? && r.digits == 4 <==> 0.001 <= num < 1.0
    ensures r.Fixed? && r.digits == 2 <==> 1.0 <= num < 10000.0
    ensures r.Grouped? <==> 10000.0 <= num
    ensures !r.Text? && !r.Plain? && r.value == num
  {
    if num < 0.000001 then Exponential(num, 4)
    else if num < 0.001 then Fixed("", num, 6, "")
    else if num < 1.0 then Fixed("", num, 4, "")
    else if num < 10000.0 then Fixed("", num, 2, "")
    else Grouped(num, 2)
  }

  /** How coarse a rendering is: more fraction digits rank lower. */
  function Coarseness(r: Shown): nat {
    match r
    case Exponential(_, _) => 0
    case Fixed(_, _, d, _) => if d >= 6 then 1 else if d >= 4 then 2 else 3
    case Grouped(_, _) => 4
    case _ => 5
  }

  /** A larger number never gets a finer rendering. */
  lemma CurrencyTiersMonotone(x: real, y: real)
    requires x <= y
    ensures Coarseness(CurrencyShown(x)) <= Coarseness(CurrencyShown(y))
  {
  }

  /**
   * `formatCurrency`: "" for empty input, non-numeric input unchanged,
   * otherwise the tier of `parseFloat(value)`.
   */
  function FormatCurrency(value: string): (r: Shown)
    ensures value == "" ==> r == Text("")
    ensures value != "" && ParseFloat(value).None? ==> r == Text(value)
    ensures ParseFloat(value).Some? ==> r == CurrencyShown(ParseFloat(value).value)
  {
    if value == "" then Text("")
    else match ParseFloat(value)
      case None => Text(value)
      case Some(num) => CurrencyShown(num)
  }

  /** `formatDollarValue`: "<$0.01" below a cent, otherwise `$` and two decimals. */
  function FormatDollarValue(value: real): (r: Shown)
    ensures r == Text("<$0.01") <==> value < 0.01
    ensures value >= 0.01 ==> r == Fixed("$", value, 2, "")
  {
    if value < 0.01 then Text("<$0.01") else Fixed("$", value, 2, "")
  }

  // ---------------------------------------------------------------------------
  // Price impact

  const ImpactColors: seq<string> := ["text-green-400", "text-green-300", "text-yellow-400", "text-red-400"]

  /**
   * `getPriceImpactColor` on the parsed impact: green below 0.1, light green
   * below 0.5, yellow below 1, red otherwise and for NaN.
   */
  function ImpactLevel(impact: Option<real>): (r: nat)
    ensures r < |ImpactColors|
    ensures impact.None? ==> r == 3
    ensures impact.Some? ==>
      && (r == 0 <==> impact.value < 0.1)
      && (r <= 1 <==> impact.value < 0.5)
      && (r <= 2 <==> impact.value < 1.0)
  {
    match impact
    case None => 3
    case Some(v) => if v < 0.1 then 0 else if v < 0.5 then 1 else if v < 1.0 then 2 else 3
  }

  function PriceImpactColor(priceImpact: string): (r: string)
    ensures r in ImpactColors
    ensures ParseFloat(priceImpact).None? ==> r == "text-red-400"
  {
    ImpactColors[ImpactLevel(ParseFloat(priceImpact))]
  }

  /** A larger impact is never shown in a milder colour. */
  lemma ImpactMonotone(x: real, y: real)
    requires x <= y
    ensures ImpactLevel(Some(x)) <= ImpactLevel(Some(y))
  {
  }

  // ---------------------------------------------------------------------------
  // Market cap and percentage

  /**
   * `formatMarketCap` (the same function in both utility files): millions
   * from 1e6, thousands from 1e3, the plain number below.
   */
  function FormatMarketCap(value: real): (r: Shown)
    ensures r.Fixed? && r.suffix == "M" <==> value >= 1000000.0
    ensures r.Fixed? && r.suffix == "K" <==> 1000.0 <= value < 1000000.0
    ensures r.Plain? <==> value < 1000.0
    ensures r.Fixed? ==> r.digits == 2 && r.prefix == ""
  {
    if value >= 1000000.0 then Fixed("", value / 1000000.0, 2, "M")
    else if value >= 1000.0 then Fixed("", value / 1000.0, 2, "K")
    else Plain(value)
  }

  /** The unit a market-cap rendering scales by. */
  function Unit(r: Shown): real {
    if r.Fixed? && r.suffix == "M" then 1000000.0
    else if r.Fixed? && r.suffix == "K" then 1000.0
    else 1.0
  }

  /**
   * The shown number times its unit is the market cap, and a scaled number
   * is at least 1 (below 1000 for thousands).
   */
  lemma MarketCapScales(value: real)
    ensures var r := FormatMarketCap(value);
      && (r.Fixed? || r.Plain?)
      && r.value * Unit(r) == value
      && (r.Fixed? ==> 1.0 <= r.value)
      && (r.Fixed? && r.suffix == "K" ==> r.value < 1000.0)
  {
  }

  /** `formatPercentage`: a "+" in front of every non-negative value, two decimals, then "%". */
  function FormatPercentage(value: real): (r: Shown)
    ensures r.Fixed? && r.value == value && r.digits == 2 && r.suffix == "%"
    ensures r.prefix == "+" <==> value >= 0.0
    ensures r.prefix == "" <==> value < 0.0
  {
    Fixed(if value >= 0.0 then "+" else "", value, 2, "%")
  }
}

=== FILE: memeverse_utils.dfy ===
/**
 * The MemeVerse utilities: the time left until a deadline, the UTC-offset
 * label of a local date-time, and the stage-keyed card style lookups over
 * the card style tables.
 */
module MemeverseUtils {
  import opened Text
  import opened Numbers

  const MinuteMs: nat := 60000
  const HourMs: nat := 3600000
  const DayMs: nat := 86400000

  // ---------------------------------------------------------------------------
  // Time remaining

  /** What `formatTimeRemaining` shows. */
  datatype Remaining =
    | Ended
    | DaysHours(days: nat, hours: nat)        // "Xd Yh"
    | HoursMinutes(hours: nat, minutes: nat)  // "Xh Ym"
    | Minutes(minutes: nat)                   // "Xm"

  /**
   * The time from `now` to `end` (both in milliseconds): "Ended" when it is
   * not positive, otherwise whole days and hours, or hours and minutes when
   * less than a day is left, or minutes when less than an hour is left.
   * Every part is the floor of the remaining time in its unit.
   */
  function TimeRemaining(end: int, now: int): (r: Remaining)
    ensures r.Ended? <==> end - now <= 0
    ensures r.DaysHours? ==>
      var diff := end - now;
      && r.days > 0 && r.hours < 24
      && r.days * DayMs + r.hours * HourMs <= diff < r.days * DayMs + (r.hours + 1) * HourMs
    ensures r.HoursMinutes? ==>
      var diff := end - now;
      && diff < DayMs && r.hours > 0 && r.minutes < 60
      && r.hours * HourMs + r.minutes * MinuteMs <= diff < r.hours * HourMs + (r.minutes + 1) * MinuteMs
    ensures r.Minutes? ==>
      var diff := end - now;
      && diff < HourMs && r.minutes < 60
      && r.minutes * MinuteMs <= diff < (r.minutes + 1) * MinuteMs
  {
    var diff := end - now;
    if diff <= 0 then Ended
    else
      var days := diff / DayMs;
      var hours := (diff % DayMs) / HourMs;
      var minutes := (diff % HourMs) / MinuteMs;
      SplitFacts(diff);
      if days > 0 then DaysHours(days, hours)
      else if hours > 0 then HoursMinutes(hours, minutes)
      else Minutes(minutes)
  }

  /** The three quotients of `formatTimeRemaining` are the floor decomposition of `diff`. */
  lemma SplitFacts(diff: nat)
    ensures var days, hours, minutes := diff / DayMs, (diff % DayMs) / HourMs, (diff % HourMs) / MinuteMs;
      && hours < 24 && minutes < 60
      && days * DayMs + hours * HourMs <= diff < days * DayMs + (hours + 1) * HourMs
      && days * DayMs + hours * HourMs + minutes * MinuteMs <= diff
      && diff < days * DayMs + hours * HourMs + (minutes + 1) * MinuteMs
  {
    var d, rd := diff / DayMs, diff % DayMs;
    var h, rh := rd / HourMs, rd % HourMs;
    assert diff == d * DayMs + rd;
    assert rd == h * HourMs + rh && rh < HourMs;
    assert DayMs == 24 * HourMs;
    assert h < 24;
    assert diff == (d * 24 + h) * HourMs + rh;
    assert diff % HourMs == rh;
    var m := rh / MinuteMs;
    assert rh == m * MinuteMs + rh % MinuteMs;
  }

  /** The text shown for a `Remaining`. */
  function Render(r: Remaining): (s: string)
    ensures s == "Ended" <==> r.Ended?
  {
    if r.Ended? then "Ended"
    else
      var lead := NatToDigits(Lead(r));
      var s := match r
        case DaysHours(_, h) => lead + "d " + NatToDigits(h) + "h"
        case HoursMinutes(_, m) => lead + "h " + NatToDigits(m) + "m"
        case _ => lead + "m";
      assert s[0] == lead[0] && IsDigit(s[0]);
      s
  }

  /** The first number a rendering shows. */
  function Lead(r: Remaining): nat {
    match r
    case Ended => 0
    case DaysHours(d, _) => d
    case HoursMinutes(h, _) => h
    case Minutes(m) => m
  }

  /** `formatTimeRemaining(endTime)` with the clock reading passed in. */
  function FormatTimeRemaining(end: int, now: int): (s: string)
    ensures s == "Ended" <==> end - now <= 0
  {
    Render(TimeRemaining(end, now))
  }

  /** The unit letter after the first number: 'd', 'h' or 'm'. */
  function LeadUnit(r: Remaining): char {
    match r
    case DaysHours(_, _) => 'd'
    case HoursMinutes(_, _) => 'h'
    case _ => 'm'
  }

  /** The second number of a two-part rendering: hours after days, minutes after hours. */
  function Second(r: Remaining): nat {
    match r
    case DaysHours(_, h) => h
    case HoursMinutes(_, m) => m
    case _ => 0
  }

  /** The unit letter that ends a two-part rendering. */
  function SecondUnit(r: Remaining): char {
    if r.DaysHours? then 'h' else 'm'
  }

  /**
   * A rendering reads back as its parts: the leading digits give the first
   * part and are followed by its unit letter; "Xm" ends there, while "Xd Yh"
   * and "Xh Ym" go on with a space, digits that give the second part, and
   * the second unit letter.
   */
  lemma {:induction false} RenderReadsBack(r: Remaining)
    requires !r.Ended?
    ensures var s := Render(r);
      var lead := DigitPrefix(s);
      var k := |lead|;
      && AllDigits(lead)
      && DigitsValue(lead) == Lead(r)
      && k < |s| && s[k] == LeadUnit(r)
      && (r.Minutes? ==> |s| == k + 1)
      && (!r.Minutes? ==>
            && k + 1 < |s| && s[k + 1] == ' '
            && var tail := s[k + 2..];
               var second := DigitPrefix(tail);
               && AllDigits(second) && DigitsValue(second) == Second(r)
               && tail == second + [SecondUnit(r)])
  {
    RenderParts(r);
    PartsReadBack(Lead(r), LeadUnit(r), Second(r), SecondUnit(r), !r.Minutes?);
  }

  /** The text a rendering is made of, part by part. */
  function Parts(a: nat, u: char, b: nat, u2: char, two: bool): string {
    NatToDigits(a) + [u] + (if two then [' '] + NatToDigits(b) + [u2] else [])
  }

  lemma RenderParts(r: Remaining)
    requires !r.Ended?
    ensures Render(r) == Parts(Lead(r), LeadUnit(r), Second(r), SecondUnit(r), !r.Minutes?)
  {
  }

  /** The parts of a rendering are recovered from its text. */
  lemma {:induction false} PartsReadBack(a: nat, u: char, b: nat, u2: char, two: bool)
    requires !IsDigit(u) && !IsDigit(u2)
    ensures var s := Parts(a, u, b, u2, two);
      var lead := DigitPrefix(s);
      var k := |lead|;
      && AllDigits(lead)
      && DigitsValue(lead) == a
      && k < |s| && s[k] == u
      && (!two ==> |s| == k + 1)
      && (two ==>
            && k + 1 < |s| && s[k + 1] == ' '
            && var tail := s[k + 2..];
               var second := DigitPrefix(tail);
               && AllDigits(second) && DigitsValue(second) == b
               && tail == second + [u2])
  {
    var digits := NatToDigits(a);
    var rest := [u] + (if two then [' '] + NatToDigits(b) + [u2] else []);
    assert Parts(a, u, b, u2, two) == digits + rest;
    DigitPrefixStops(digits, rest);
    NatToDigitsRoundTrip(a);
    if two {
      var d2 := NatToDigits(b);
      assert Parts(a, u, b, u2, two)[|digits| + 2..] == d2 + [u2];
      DigitPrefixStops(d2, [u2]);
      NatToDigitsRoundTrip(b);
    }
  }

  /** The digit prefix of digits followed by a non-digit is those digits. */
  lemma {:induction false} DigitPrefixStops(digits: string, rest: string)
    requires AllDigits(digits) && rest != [] && !IsDigit(rest[0])
    ensures DigitPrefix(digits + rest) == digits
    decreases |digits|
  {
    if digits == [] {
      assert (digits + rest)[0] == rest[0];
    } else {
      assert (digits + rest)[1..] == digits[1..] + rest;
      DigitPrefixStops(digits[1..], rest);
    }
  }

  // ---------------------------------------------------------------------------
  // UTC offset label

  /** JavaScript's `%`: the remainder takes the sign of the dividend. */
  function JsRem(a: int, b: int): (r: int)
    requires b > 0
    ensures -b < r < b
    ensures a >= 0 ==> r == a % b
    ensures a < 0 ==> r <= 0
    ensures Abs(r) == Abs(a) % b
  {
    if a >= 0 then a % b else -((-a) % b)
  }

  function Abs(x: int): nat {
    if x < 0 then -x else x
  }

  /** The parts of a label "UTC±H[:MM]". */
  datatype OffsetLabel = OffsetLabel(sign: char, hours: nat, minutes: nat)

  /**
   * `String(n).padStart(2, "0")`: a single digit gets a leading "0", longer
   * numbers are kept; either way the text reads back as `n`.
   */
  function Pad2(n: nat): (r: string)
    ensures AllDigits(r) && |r| >= 2 && DigitsValue(r) == n
    ensures n < 10 ==> r == ['0', DigitChar(n)]
    ensures n >= 10 ==> r == NatToDigits(n)
    ensures n < 100 ==> |r| == 2
  {
    NatToDigitsRoundTrip(n);
    if n < 10 then
      var r := "0" + NatToDigits(n);
      assert r[..1] == "0" && DigitsValue("0") == 0;
      r
    else
      assert n < 100 ==> NatToDigits(n) == NatToDigits(n / 10) + [DigitChar(n % 10)];
      NatToDigits(n)
  }

  /** "UTC", the sign, the hours, and ":MM" only when the minutes are not zero. */
  function RenderOffset(l: OffsetLabel): string {
    "UTC" + [l.sign] + NatToDigits(l.hours) + (if l.minutes > 0 then ":" + Pad2(l.minutes) else "")
  }

  /**
   * The offset label of `formatDateTime` as written, for `getTimezoneOffset`
   * minutes `off` (positive west of UTC): the hours are
   * `|Math.floor(off / 60)|`, which for a negative offset that is not a
   * whole number of hours is one hour too many.
   */
  function OffsetLabelAsWritten(off: int): (r: OffsetLabel)
    ensures r.sign == (if off <= 0 then '+' else '-')
    ensures r.minutes == Abs(off) % 60
    ensures off >= 0 ==> r.hours * 60 + r.minutes == off
    ensures off < 0 && off % 60 != 0 ==> r.hours * 60 + r.minutes == Abs(off) + 60
  {
    OffsetLabel(if off <= 0 then '+' else '-', Abs(off / 60), Abs(JsRem(off, 60)))
  }

  /** India, UTC+5:30, has offset -330 and is labelled "UTC+6:30". */
  lemma OffsetAsWrittenIndia()
    ensures OffsetLabelAsWritten(-330) == OffsetLabel('+', 6, 30)
    ensures RenderOffset(OffsetLabelAsWritten(-330)) == "UTC+6:30"
    ensures OffsetLabelAsWritten(-330).hours * 60 + OffsetLabelAsWritten(-330).minutes != 330
  {
    assert NatToDigits(6) == "6";
    assert NatToDigits(30) == "30";
  }

  /** The label with the hours taken from `|off|`: hours and minutes add up to the offset. */
  function OffsetLabelCorrected(off: int): (r: OffsetLabel)
    ensures r.sign == (if off <= 0 then '+' else '-')
    ensures r.minutes < 60
    ensures r.hours * 60 + r.minutes == Abs(off)
    ensures r.minutes > 0 <==> Abs(JsRem(off, 60)) > 0
  {
    OffsetLabel(if off <= 0 then '+' else '-', Abs(off) / 60, Abs(off) % 60)
  }

  /** The corrected label agrees with the written one wherever the written one is right. */
  lemma OffsetCorrectedAgrees(off: int)
    requires off >= 0 || off % 60 == 0
    ensures OffsetLabelCorrected(off) == OffsetLabelAsWritten(off)
  {
  }

  /** The corrected label of India's offset reads "UTC+5:30". */
  lemma OffsetCorrectedIndia()
    ensures RenderOffset(OffsetLabelCorrected(-330)) == "UTC+5:30"
  {
    assert OffsetLabelCorrected(-330) == OffsetLabel('+', 5, 30);
    assert NatToDigits(5) == "5";
    assert NatToDigits(30) == "30";
  }

  /** The two characters of `r` at `i` are digits reading `v`. */
  predicate Field2(r: string, i: int, v: nat) {
    0 <= i && i + 2 <= |r| && AllDigits(r[i..i + 2]) && DigitsValue(r[i..i + 2]) == v
  }

  /** The template `${year}-${month}-${day} ${hours}:${minutes} ${zone}`. */
  function Stamp(y: string, mo: string, d: string, h: string, mi: string, zone: string): string {
    y + "-" + mo + "-" + d + " " + h + ":" + mi + " " + zone
  }

  /** Where each part sits in a stamp, and what its digit fields read. */
  lemma StampLayout(y: string, mo: string, d: string, h: string, mi: string, zone: string)
    requires AllDigits(y) && AllDigits(mo) && AllDigits(d) && AllDigits(h) && AllDigits(mi)
    ensures var r, k := Stamp(y, mo, d, h, mi, zone), |y|;
      k < |r| && AllDigits(r[..k]) && DigitsValue(r[..k]) == DigitsValue(y) && r[k] == '-' &&
      |zone| < |r| && r[|r| - |zone|..] == zone && r[|r| - |zone| - 1] == ' '
    ensures |mo| == 2 && |d| == 2 && |h| == 2 && |mi| == 2 ==>
      var r, k := Stamp(y, mo, d, h, mi, zone), |y|;
      |r| == k + 13 + |zone| &&
      Field2(r, k + 1, DigitsValue(mo)) && r[k + 3] == '-' && Field2(r, k + 4, DigitsValue(d)) && r[k + 6] == ' ' &&
      Field2(r, k + 7, DigitsValue(h)) && r[k + 9] == ':' && Field2(r, k + 10, DigitsValue(mi)) && r[k + 12] == ' '
  {
    var r := Stamp(y, mo, d, h, mi, zone);
    var k := |y|;
    assert r == y + "-" + mo + "-" + d + " " + h + ":" + mi + (" " + zone);
    assert r[..k] == y;
    assert r[|r| - |zone|..] == zone;
    if |mo| == 2 && |d| == 2 && |h| == 2 && |mi| == 2 {
      assert r[k + 1..k + 3] == mo && r[k + 4..k + 6] == d;
      assert r[k + 7..k + 9] == h && r[k + 10..k + 12] == mi;
    }
  }

  /**
   * `formatDateTime` on local date parts already read from the clock:
   * "YYYY-MM-DD HH:MM " and the offset label as the code writes it. The
   * year reads back from the leading digits; each other part below 100
   * reads back from its two-digit field.
   */
  function FormatDateTime(year: nat, month: nat, day: nat, hour: nat, minute: nat, off: int): (r: string)
    ensures var k := |NatToDigits(year)|;
      k < |r| && AllDigits(r[..k]) && DigitsValue(r[..k]) == year && r[k] == '-'
    ensures var zone := RenderOffset(OffsetLabelAsWritten(off));
      |zone| < |r| && r[|r| - |zone|..] == zone && r[|r| - |zone| - 1] == ' '
    ensures month < 100 && day < 100 && hour < 100 && minute < 100 ==>
      var k := |NatToDigits(year)|;
      |r| == k + 13 + |RenderOffset(OffsetLabelAsWritten(off))| &&
      Field2(r, k + 1, month) && r[k + 3] == '-' && Field2(r, k + 4, day) && r[k + 6] == ' ' &&
      Field2(r, k + 7, hour) && r[k + 9] == ':' && Field2(r, k + 10, minute) && r[k + 12] == ' '
  {
    var y, mo, d, h, mi := NatToDigits(year), Pad2(month), Pad2(day), Pad2(hour), Pad2(minute);
    var zone := RenderOffset(OffsetLabelAsWritten(off));
    NatToDigitsRoundTrip(year);
    StampLayout(y, mo, d, h, mi, zone);
    Stamp(y, mo, d, h, mi, zone)
  }

  // ---------------------------------------------------------------------------
  // Card styles

  const BorderGradients: map<string, string> := map[
    "genesis" := "from-purple-500/70 via-pink-500/70 to-purple-500/70",
    "locked" := "from-pink-500/70 via-purple-500/70 to-pink-500/70",
    "unlocked" := "from-cyan-400/80 via-blue-500/80 to-indigo-400/80",
    "refund" := "from-red-400/80 via-orange-500/80 to-yellow-500/80",
    "default" := "from-white/10 to-white/5"]

  const BackgroundGradients: map<string, string> := map[
    "genesis" := "from-purple-950/90 via-[#0f0326]/95 to-purple-950/90",
    "locked" := "from-pink-950/90 via-[#0f0326]/95 to-pink-950/90",
    "unlocked" := "from-cyan-950/90 via-[#0f0326]/95 to-cyan-950/90",
    "refund" := "from-red-950/90 via-[#0f0326]/95 to-red-950/90",
    "default" := "from-[#0f0326]/95 to-[#0f0326]/95"]

  const HoverShadowColors: map<string, string> := map[
    "genesis" := "rgba(168,85,247,0.4)",
    "locked" := "rgba(236,72,153,0.4)",
    "unlocked" := "rgba(6,182,212,0.5)",
    "refund" := "rgba(239,68,68,0.5)",
    "default" := "rgba(168,85,247,0.4)"]

  /** The keys every style table has. */
  const StyleKeys: set<string> := {"genesis", "locked", "unlocked", "refund", "default"}

  lemma TablesKeyed()
    ensures BorderGradients.Keys == StyleKeys
    ensures BackgroundGradients.Keys == StyleKeys
    ensures HoverShadowColors.Keys == StyleKeys
  {
  }

  /**
   * `table[stage.toLowerCase()] || table.default`: the entry of the
   * lower-cased stage when there is a non-empty one, else the default.
   */
  function StyleLookup(table: map<string, string>, stage: string): (r: string)
    requires "default" in table
    ensures Lower(stage) in table && table[Lower(stage)] != "" ==> r == table[Lower(stage)]
    ensures Lower(stage) !in table ==> r == table["default"]
    ensures Lower(stage) in table && table[Lower(stage)] == "" ==> r == table["default"]
  {
    var key := Lower(stage);
    if key in table && table[key] != "" then table[key] else table["default"]
  }

  /** The lookup ignores case: a stage and its lower-case form get the same style. */
  lemma StyleLookupIgnoresCase(table: map<string, string>, stage: string)
    requires "default" in table
    ensures StyleLookup(table, stage) == StyleLookup(table, Lower(stage))
  {
    LowerIdempotent(stage);
  }

  function BorderGradient(stage: string): (r: string)
    ensures r == StyleLookup(BorderGradients, stage)
    ensures r in BorderGradients.Values
  {
    StyleLookup(BorderGradients, stage)
  }

  function BackgroundGradient(stage: string): (r: string)
    ensures r == StyleLookup(BackgroundGradients, stage)
    ensures r in BackgroundGradients.Values
  {
    StyleLookup(BackgroundGradients, stage)
  }

  function HoverShadowColor(stage: string): (r: string)
    ensures r == StyleLookup(HoverShadowColors, stage)
    ensures r in HoverShadowColors.Values
  {
    StyleLookup(HoverShadowColors, stage)
  }

  /**
   * `getStageStyle`: the border, background or shadow lookup for the three
   * style types, "" for any other.
   */
  function StageStyle(stage: string, styleType: string): (r: string)
    ensures styleType == "border" ==> r == BorderGradient(stage)
    ensures styleType == "background" ==> r == BackgroundGradient(stage)
    ensures styleType == "shadow" ==> r == HoverShadowColor(stage)
    ensures styleType !in {"border", "background", "shadow"} ==> r == ""
  {
    match styleType
    case "border" => StyleLookup(BorderGradients, stage)
    case "background" => StyleLookup(BackgroundGradients, stage)
    case "shadow" => StyleLookup(HoverShadowColors, stage)
    case _ => ""
  }
}

=== FILE: numbers.dfy ===
/**
 * Decimal text and numbers: the value of a digit string, the decimal digits
 * of a natural number (template-literal `${n}`), and the two JavaScript
 * conversions the pages use on user text, `Number(s)` and
 * `Number.parseFloat(s)`, over the decimal forms those pages produce.
 * `None` stands for `NaN`.
 */
module Numbers {
  import opened Wrappers
  import opened Text

  function DigitVal(c: char): (d: nat)
    requires IsDigit(c)
    ensures d < 10
  {
    c as int - '0' as int
  }

  function DigitChar(d: nat): (c: char)
    requires d < 10
    ensures IsDigit(c) && DigitVal(c) == d
  {
    ('0' as int + d) as char
  }

  /** The value of a string of decimal digits, most significant first; "" is 0. */
  function DigitsValue(s: string): nat
    requires AllDigits(s)
  {
    if s == [] then 0 else 10 * DigitsValue(s[..|s| - 1]) + DigitVal(s[|s| - 1])
  }

  /** A digit string has a positive value exactly when one of its digits is not '0'. */
  lemma {:induction false} DigitsPositive(s: string)
    requires AllDigits(s)
    ensures DigitsValue(s) > 0 <==> exists i :: 0 <= i < |s| && s[i] != '0'
  {
    if s != [] {
      var init := s[..|s| - 1];
      DigitsPositive(init);
      assert forall i :: 0 <= i < |init| ==> init[i] == s[i];
      if DigitsValue(init) > 0 {
        var i :| 0 <= i < |init| && init[i] != '0';
        assert s[i] != '0';
      } else if s[|s| - 1] == '0' {
        forall i | 0 <= i < |s| ensures s[i] == '0' {
          if i < |s| - 1 { assert init[i] == s[i]; }
        }
      }
    }
  }

  /** `${n}`: the decimal digits of `n`, without leading zeros. */
  function NatToDigits(n: nat): (r: string)
    ensures |r| >= 1 && AllDigits(r)
    ensures |r| > 1 ==> r[0] != '0'
  {
    if n < 10 then [DigitChar(n)] else NatToDigits(n / 10) + [DigitChar(n % 10)]
  }

  /** Reading back the digits of `n` gives `n`. */
  lemma {:induction false} NatToDigitsRoundTrip(n: nat)
    ensures DigitsValue(NatToDigits(n)) == n
  {
    if n >= 10 {
      NatToDigitsRoundTrip(n / 10);
      var s := NatToDigits(n);
      assert s[..|s| - 1] == NatToDigits(n / 10);
    }
  }

  /** The value `0.fp` of the digits after a decimal point. */
  function FractionValue(fp: string): (v: real)
    requires AllDigits(fp)
    ensures 0.0 <= v < 1.0
    decreases |fp|
  {
    if fp == [] then 0.0 else (DigitVal(fp[0]) as real + FractionValue(fp[1..])) / 10.0
  }

  /** A fraction is positive exactly when one of its digits is not '0'. */
  lemma {:induction false} FractionPositive(fp: string)
    requires AllDigits(fp)
    ensures FractionValue(fp) > 0.0 <==> exists i :: 0 <= i < |fp| && fp[i] != '0'
    decreases |fp|
  {
    if fp != [] {
      var tail := fp[1..];
      FractionPositive(tail);
      assert forall i :: 0 <= i < |tail| ==> tail[i] == fp[i + 1];
      if FractionValue(tail) > 0.0 {
        var i :| 0 <= i < |tail| && tail[i] != '0';
        assert fp[i + 1] != '0';
      } else if fp[0] == '0' {
        forall i | 0 <= i < |fp| ensures fp[i] == '0' {
          if i > 0 { assert fp[i] == tail[i - 1]; }
        }
      }
    }
  }

  /** The value of the decimal literal `ip.fp`. */
  function DecimalValue(ip: string, fp: string): (v: real)
    requires AllDigits(ip) && AllDigits(fp)
    ensures v >= 0.0
  {
    DigitsValue(ip) as real + FractionValue(fp)
  }

  /** A decimal literal is positive exactly when one of its digits is not '0'. */
  lemma DecimalPositive(ip: string, fp: string)
    requires AllDigits(ip) && AllDigits(fp)
    ensures DecimalValue(ip, fp) > 0.0 <==>
      (exists i :: 0 <= i < |ip| && ip[i] != '0') || (exists i :: 0 <= i < |fp| && fp[i] != '0')
  {
    DigitsPositive(ip);
    FractionPositive(fp);
  }

  /** `s` is a decimal literal with its one dot at index `k`: digits, '.', digits. */
  predicate SplitAt(s: string, k: int) {
    0 <= k < |s| && s[k] == '.' && AllDigits(s[..k]) && AllDigits(s[k + 1..])
  }

  /** The digit prefix of a literal split at `k` ends at the dot. */
  lemma SplitPrefix(s: string, k: int)
    requires SplitAt(s, k)
    ensures DigitPrefix(s) == s[..k]
  {
  }

  /** The digit prefix of a digit string is the whole string. */
  lemma AllDigitPrefix(s: string)
    ensures AllDigits(s) ==> DigitPrefix(s) == s
  {
  }

  /** Wherever `s` splits, the digit prefixes stop at the dot and at the end. */
  lemma SplitPrefixes(s: string)
    ensures forall k :: SplitAt(s, k) ==>
      DigitPrefix(s) == s[..k] && DigitPrefix(s[k + 1..]) == s[k + 1..]
  {
    forall k | SplitAt(s, k)
      ensures DigitPrefix(s) == s[..k] && DigitPrefix(s[k + 1..]) == s[k + 1..]
    {
      SplitPrefix(s, k);
      AllDigitPrefix(s[k + 1..]);
    }
  }

  /**
   * The longest decimal prefix `digits[.digits]` of `s` and its value; `None`
   * when that prefix has no digit at all. A whole literal is read entirely.
   */
  function LeadingDecimal(s: string): (r: Option<real>)
    ensures r.Some? ==> r.value >= 0.0
    ensures r.None? <==> !(s != [] && IsDigit(s[0])) && !(|s| >= 2 && s[0] == '.' && IsDigit(s[1]))
    ensures s != [] && AllDigits(s) ==> r == Some(DigitsValue(s) as real)
    ensures forall k :: SplitAt(s, k) && |s| >= 2 ==> r == Some(DecimalValue(s[..k], s[k + 1..]))
  {
    var ip := DigitPrefix(s);
    var rest := s[|ip|..];
    var fp := if rest != [] && rest[0] == '.' then DigitPrefix(rest[1..]) else [];
    SplitPrefixes(s);
    AllDigitPrefix(s);
    if ip == [] && fp == [] then None else Some(DecimalValue(ip, fp))
  }

  /**
   * `Number.parseFloat(s)` for leading white space, then an optional sign
   * followed by a decimal literal: trailing text after the longest such
   * prefix is ignored, and text with no leading digit is NaN.
   */
  function ParseFloat(s: string): (r: Option<real>)
    ensures s != [] && IsDigit(s[0]) ==> r.Some? && r.value >= 0.0
    ensures s == [] ==> r.None?
    ensures s != [] && !IsDigit(s[0]) && !IsJsSpace(s[0]) && s[0] !in "+-." ==> r.None?
    ensures s != [] && (AllDigits(s) || exists k :: SplitAt(s, k)) ==> r == LeadingDecimal(s)
    decreases |s|
  {
    if s != [] && IsJsSpace(s[0]) then ParseFloat(s[1..])
    else if s != [] && s[0] == '-' then
      match LeadingDecimal(s[1..])
      case Some(v) => Some(-v)
      case None => None
    else if s != [] && s[0] == '+' then LeadingDecimal(s[1..])
    else LeadingDecimal(s)
  }

  /** White space before the number does not change what `parseFloat` reads. */
  lemma {:induction false} ParseFloatSkipsSpace(w: string, s: string)
    requires forall i :: 0 <= i < |w| ==> IsJsSpace(w[i])
    ensures ParseFloat(w + s) == ParseFloat(s)
  {
    if w != [] {
      assert (w + s)[0] == w[0] && (w + s)[1..] == w[1..] + s;
      ParseFloatSkipsSpace(w[1..], s);
    } else {
      assert w + s == s;
    }
  }

  /**
   * `Number(s)` for text made of digits and dots: "" is 0, a literal with at
   * most one dot and at least one digit is its value, anything else is NaN.
   */
  function NumberOf(s: string): (r: Option<real>)
    ensures s == [] ==> r == Some(0.0)
    ensures s != [] && AllDigits(s) ==> r == Some(DigitsValue(s) as real)
    ensures forall k :: SplitAt(s, k) && |s| >= 2 ==> r == Some(DecimalValue(s[..k], s[k + 1..]))
    ensures s != [] && !AllDigits(s) && (|s| == 1 || !exists k :: SplitAt(s, k)) ==> r.None?
    ensures r.Some? ==> r.value >= 0.0
    ensures (exists i :: 0 <= i < |s| && !IsDigitOrDot(s[i])) ==> r.None?
  {
    if s == [] then Some(0.0)
    else
      var ip := DigitPrefix(s);
      var rest := s[|ip|..];
      SplitPrefixes(s);
      if rest == [] then
        assert ip == s;
        Some(DecimalValue(ip, []))
      else if rest[0] == '.' && AllDigits(rest[1..]) && !(ip == [] && |rest| == 1) then
        assert SplitAt(s, |ip|);
        assert forall i :: 0 <= i < |s| ==> (i < |ip| && s[i] == ip[i]) || (i >= |ip| && s[i] == rest[i - |ip|]);
        Some(DecimalValue(ip, rest[1..]))
      else
        None
  }
}

=== FILE: project.dfy ===
/**
 * A catalog entry of the MemeVerse board. Timestamps are milliseconds since
 * the epoch, already parsed from their ISO-8601 text; fields the source may
 * leave `undefined` are optional.
 */
module Projects {
  import opened Wrappers

  datatype Project = Project(
    id: string,
    symbol: string,
    name: string,
    description: string,
    stage: string,             // "Genesis" | "Refund" | "Locked" | "Unlocked" (other text falls back)
    mode: string,              // "normal" | "flash"
    chain: Option<string>,
    raisedAmount: real,
    raisedToken: string,
    createdAt: int,
    genesisEndTime: Option<int>,
    unlockTime: Option<int>,
    marketCap: Option<real>,
    population: real,
    stakingApy: Option<real>,
    treasuryFund: Option<real>,
    progress: Option<real>,
    listedOnOutSwap: bool
  )
}

=== FILE: project_card.dfy ===
/**
 * What a MemeVerse board card derives from its project: the Genesis
 * progress, the progress bar, where a click leads, the high-APY badge, the
 * stage colours and which detail rows are shown.
 */
module ProjectCard {
  import opened Wrappers
  import opened Text
  import opened Projects
  import MemeverseUtils

  /** The minimum total fund of a Genesis, in UETH. */
  const MinTotalFund: real := 10.0

  // ---------------------------------------------------------------------------
  // Progress

  /**
   * `calculateProgress`: in Genesis, the raised amount as a percentage of
   * the minimum fund, not capped at 100; elsewhere the stored progress, or
   * 0 when there is none.
   */
  function Progress(p: Project): (r: real)
    ensures p.stage == "Genesis" ==> r * MinTotalFund == p.raisedAmount * 100.0
    ensures p.stage == "Genesis" ==> (r >= 100.0 <==> p.raisedAmount >= MinTotalFund)
    ensures p.stage != "Genesis" ==> r == p.progress.GetOr(0.0)
  {
    if p.stage == "Genesis" then p.raisedAmount / MinTotalFund * 100.0
    else p.progress.GetOr(0.0)
  }

  /** The bar width, `Math.min(progress, 100)`. */
  function BarWidth(progress: real): (r: real)
    ensures r <= 100.0
    ensures r <= progress
    ensures r == progress || r == 100.0
  {
    if progress <= 100.0 then progress else 100.0
  }

  /** The bar's gradient, glow and percentage colour. */
  datatype ProgressLook = ProgressLook(gradient: string, glow: string, textClass: string)

  const CompleteLook := ProgressLook(
    "from-cyan-400 via-purple-400 to-pink-400", "0 0 8px rgba(236,72,153,0.6)", "text-cyan-300 font-medium")
  const RunningLook := ProgressLook(
    "from-purple-500 via-pink-500 to-purple-500", "none", "text-pink-400 font-medium")

  /** The complete look is chosen exactly when progress reaches 100. */
  function Look(progress: real): (r: ProgressLook)
    ensures r == CompleteLook <==> progress >= 100.0
    ensures r == RunningLook <==> progress < 100.0
  {
    if progress >= 100.0 then CompleteLook else RunningLook
  }

  /** The bar is full exactly when the complete look is shown. */
  lemma FullBarIsComplete(progress: real)
    ensures BarWidth(progress) == 100.0 <==> Look(progress) == CompleteLook
  {
  }

  // ---------------------------------------------------------------------------
  // Clicks and badges

  const DetailSymbols: set<string> := {"DDIN", "MDRG", "QPEPE"}

  /** `isClickable`. */
  predicate IsClickable(symbol: string) {
    symbol in DetailSymbols || symbol == "PFROG"
  }

  datatype CardAction = Navigate(path: string) | ShowAlert

  /**
   * `handleCardClick`: DDIN, MDRG and QPEPE open their detail page, PFROG
   * its locked page, every other symbol shows the "under construction" alert.
   */
  function CardClick(p: Project): (r: CardAction)
    ensures r.ShowAlert? <==> !IsClickable(p.symbol)
    ensures p.symbol in DetailSymbols ==> r == Navigate("/memeverse/" + p.id + "/detail/")
    ensures p.symbol == "PFROG" ==> r == Navigate("/memeverse/" + p.id + "/locked/")
  {
    if p.symbol == "DDIN" || p.symbol == "MDRG" || p.symbol == "QPEPE" then
      Navigate("/memeverse/" + p.id + "/detail/")
    else if p.symbol == "PFROG" then
      Navigate("/memeverse/" + p.id + "/locked/")
    else
      ShowAlert
  }

  /** `isHighApy`: a staking APY that is present, non-zero and above 1000. */
  predicate IsHighApy(p: Project) {
    p.stakingApy.Some? && p.stakingApy.value != 0.0 && p.stakingApy.value > 1000.0
  }

  /** A high-APY project has an APY above 1000, and one above 1000 is high. */
  lemma HighApyMeans(p: Project)
    ensures IsHighApy(p) <==> p.stakingApy.Some? && p.stakingApy.value > 1000.0
  {
  }

  // ---------------------------------------------------------------------------
  // Stage colours

  datatype StageColor = StageColor(bg: string, text: string, glow: string, gradient: string)

  const StageColors: map<string, StageColor> := map[
    "Genesis" := StageColor("bg-purple-600", "text-white", "shadow-[0_0_8px_rgba(168,85,247,0.6)]", "from-purple-600 to-pink-500"),
    "Refund" := StageColor("bg-red-600", "text-white", "shadow-[0_0_8px_rgba(239,68,68,0.6)]", "from-red-600 to-orange-500"),
    "Locked" := StageColor("bg-pink-600", "text-white", "shadow-[0_0_8px_rgba(236,72,153,0.6)]", "from-pink-600 to-purple-500"),
    "Unlocked" := StageColor("bg-cyan-600", "text-white", "shadow-[0_0_8px_rgba(6,182,212,0.6)]", "from-cyan-500 to-blue-500")]

  const GrayColor := StageColor("bg-gray-600", "text-white", "", "from-gray-600 to-gray-500")

  /** `STAGE_COLORS[stage] || gray`: the stage's colours, gray for an unknown stage. */
  function StageStyle(stage: string): (r: StageColor)
    ensures stage in StageColors ==> r == StageColors[stage]
    ensures stage !in StageColors ==> r == GrayColor
  {
    if stage in StageColors then StageColors[stage] else GrayColor
  }

  /** The card's own `getBorderGradient` switch. */
  function CardBorderGradient(stage: string): (r: string)
    ensures r in MemeverseUtils.BorderGradients.Values
  {
    match stage
    case "Genesis" => MemeverseUtils.BorderGradients["genesis"]
    case "Locked" => MemeverseUtils.BorderGradients["locked"]
    case "Unlocked" => MemeverseUtils.BorderGradients["unlocked"]
    case "Refund" => MemeverseUtils.BorderGradients["refund"]
    case _ => MemeverseUtils.BorderGradients["default"]
  }

  /** The card's own `getBackgroundGradient` switch. */
  function CardBackgroundGradient(stage: string): (r: string)
    ensures r in MemeverseUtils.BackgroundGradients.Values
  {
    match stage
    case "Genesis" => MemeverseUtils.BackgroundGradients["genesis"]
    case "Locked" => MemeverseUtils.BackgroundGradients["locked"]
    case "Unlocked" => MemeverseUtils.BackgroundGradients["unlocked"]
    case "Refund" => MemeverseUtils.BackgroundGradients["refund"]
    case _ => MemeverseUtils.BackgroundGradients["default"]
  }

  /** The card's own `getHoverShadowColor` switch. */
  function CardHoverShadowColor(stage: string): (r: string)
    ensures r in MemeverseUtils.HoverShadowColors.Values
  {
    match stage
    case "Genesis" => MemeverseUtils.HoverShadowColors["genesis"]
    case "Locked" => MemeverseUtils.HoverShadowColors["locked"]
    case "Unlocked" => MemeverseUtils.HoverShadowColors["unlocked"]
    case "Refund" => MemeverseUtils.HoverShadowColors["refund"]
    case _ => MemeverseUtils.HoverShadowColors["default"]
  }

  const CanonicalStages: set<string> := {"Genesis", "Locked", "Unlocked", "Refund"}

  // The lower-case forms of the four stage names are the lookup keys.

  lemma LowerGenesis()
    ensures Lower("Genesis") == "genesis"
  {
    var x := Lower("Genesis");
    assert x[0] == LowerChar('G') == 'g';
    assert x[1] == 'e' && x[2] == 'n' && x[3] == 'e' && x[4] == 's' && x[5] == 'i' && x[6] == 's';
  }

  lemma LowerLocked()
    ensures Lower("Locked") == "locked"
  {
    var x := Lower("Locked");
    assert x[0] == LowerChar('L') == 'l';
    assert x[1] == 'o' && x[2] == 'c' && x[3] == 'k' && x[4] == 'e' && x[5] == 'd';
  }

  lemma LowerUnlocked()
    ensures Lower("Unlocked") == "unlocked"
  {
    var x := Lower("Unlocked");
    assert x[0] == LowerChar('U') == 'u';
    assert x[1] == 'n' && x[2] == 'l' && x[3] == 'o' && x[4] == 'c' && x[5] == 'k' && x[6] == 'e' && x[7] == 'd';
  }

  lemma LowerRefund()
    ensures Lower("Refund") == "refund"
  {
    var x := Lower("Refund");
    assert x[0] == LowerChar('R') == 'r';
    assert x[1] == 'e' && x[2] == 'f' && x[3] == 'u' && x[4] == 'n' && x[5] == 'd';
  }

  // On the four stage names each card switch picks the lookup's entry for that stage.

  lemma GenesisStylesAgree()
    ensures CardBorderGradient("Genesis") == MemeverseUtils.BorderGradient("Genesis")
    ensures CardBackgroundGradient("Genesis") == MemeverseUtils.BackgroundGradient("Genesis")
    ensures CardHoverShadowColor("Genesis") == MemeverseUtils.HoverShadowColor("Genesis")
  {
    LowerGenesis();
  }

  lemma LockedStylesAgree()
    ensures CardBorderGradient("Locked") == MemeverseUtils.BorderGradient("Locked")
    ensures CardBackgroundGradient("Locked") == MemeverseUtils.BackgroundGradient("Locked")
    ensures CardHoverShadowColor("Locked") == MemeverseUtils.HoverShadowColor("Locked")
  {
    LowerLocked();
  }

  lemma UnlockedStylesAgree()
    ensures CardBorderGradient("Unlocked") == MemeverseUtils.BorderGradient("Unlocked")
    ensures CardBackgroundGradient("Unlocked") == MemeverseUtils.BackgroundGradient("Unlocked")
    ensures CardHoverShadowColor("Unlocked") == MemeverseUtils.HoverShadowColor("Unlocked")
  {
    LowerUnlocked();
  }

  lemma RefundStylesAgree()
    ensures CardBorderGradient("Refund") == MemeverseUtils.BorderGradient("Refund")
    ensures CardBackgroundGradient("Refund") == MemeverseUtils.BackgroundGradient("Refund")
    ensures CardHoverShadowColor("Refund") == MemeverseUtils.HoverShadowColor("Refund")
  {
    LowerRefund();
  }

  lemma CanonicalStylesAgree(stage: string)
    requires stage in CanonicalStages
    ensures CardBorderGradient(stage) == MemeverseUtils.BorderGradient(stage)
    ensures CardBackgroundGradient(stage) == MemeverseUtils.BackgroundGradient(stage)
    ensures CardHoverShadowColor(stage) == MemeverseUtils.HoverShadowColor(stage)
  {
    if stage == "Genesis" {
      GenesisStylesAgree();
    } else if stage == "Locked" {
      LockedStylesAgree();
    } else if stage == "Unlocked" {
      UnlockedStylesAgree();
    } else {
      RefundStylesAgree();
    }
  }

  /** A stage that is no spelling of a stage name falls to the default in both. */
  lemma UnknownStylesAgree(stage: string)
    requires stage !in CanonicalStages
    requires Lower(stage) !in MemeverseUtils.StyleKeys
    ensures CardBorderGradient(stage) == MemeverseUtils.BorderGradient(stage)
    ensures CardBackgroundGradient(stage) == MemeverseUtils.BackgroundGradient(stage)
    ensures CardHoverShadowColor(stage) == MemeverseUtils.HoverShadowColor(stage)
  {
    CardDefaults(stage);
    LookupDefaults(stage);
  }

  /** The card's switches fall to the default entries off the four stage names. */
  lemma CardDefaults(stage: string)
    requires stage !in CanonicalStages
    ensures CardBorderGradient(stage) == MemeverseUtils.BorderGradients["default"]
    ensures CardBackgroundGradient(stage) == MemeverseUtils.BackgroundGradients["default"]
    ensures CardHoverShadowColor(stage) == MemeverseUtils.HoverShadowColors["default"]
  {
  }

  /** The shared lookups fall to the default entries off the table keys. */
  lemma LookupDefaults(stage: string)
    requires Lower(stage) !in MemeverseUtils.StyleKeys
    ensures MemeverseUtils.BorderGradient(stage) == MemeverseUtils.BorderGradients["default"]
    ensures MemeverseUtils.BackgroundGradient(stage) == MemeverseUtils.BackgroundGradients["default"]
    ensures MemeverseUtils.HoverShadowColor(stage) == MemeverseUtils.HoverShadowColors["default"]
  {
    MemeverseUtils.TablesKeyed();
  }

  /** An upper-case spelling is styled by the lookups but not by the card. */
  lemma CardSwitchIsCaseSensitive()
    ensures CardBorderGradient("GENESIS") == MemeverseUtils.BorderGradients["default"]
    ensures MemeverseUtils.BorderGradient("GENESIS") == MemeverseUtils.BorderGradients["genesis"]
  {
    assert Lower("GENESIS") == "genesis";
  }

  // ---------------------------------------------------------------------------
  // Detail rows

  /** Which rows the card body shows. */
  datatype Rows = Rows(
    totalRaised: bool,
    genesisEndTime: bool,
    lockedUnlockTime: bool,
    stakingApy: bool,
    treasuryFund: bool,
    unlockTimeRow: bool,   // "Unlock Time" in the last row; otherwise "Population"
    progressBar: bool)

  /**
   * The rows of the card as intended: a staking or treasury row for a
   * present non-zero value and nothing otherwise. The slots as written
   * differ only by a bare "0" (`StakingSlotAsWritten`).
   */
  function VisibleRows(p: Project): (r: Rows)
    ensures r.totalRaised <==> p.stage in {"Genesis", "Refund"}
    ensures r.unlockTimeRow <==> p.stage == "Genesis"
    ensures r.progressBar <==> p.stage == "Genesis"
    ensures r.stakingApy <==> p.stage in {"Locked", "Unlocked"} && p.stakingApy.Some? && p.stakingApy.value != 0.0
    ensures r.treasuryFund <==> p.stage in {"Locked", "Unlocked"} && p.treasuryFund.Some? && p.treasuryFund.value != 0.0
    ensures r.genesisEndTime <==> p.stage == "Genesis" && p.genesisEndTime.Some?
    ensures r.lockedUnlockTime <==> p.stage == "Locked" && p.unlockTime.Some?
  {
    var lockedOrUnlocked := p.stage == "Locked" || p.stage == "Unlocked";
    Rows(
      p.stage == "Genesis" || p.stage == "Refund",
      p.stage == "Genesis" && p.genesisEndTime.Some?,
      p.stage == "Locked" && p.unlockTime.Some?,
      lockedOrUnlocked && p.stakingApy.Some? && p.stakingApy.value != 0.0,
      lockedOrUnlocked && p.treasuryFund.Some? && p.treasuryFund.value != 0.0,
      p.stage == "Genesis",
      p.stage == "Genesis")
  }

  /** A Genesis card never shows staking or treasury rows, an unknown stage shows none but "Population". */
  lemma RowsByStage(p: Project)
    ensures p.stage == "Genesis" ==> !VisibleRows(p).stakingApy && !VisibleRows(p).treasuryFund
    ensures p.stage !in CanonicalStages ==>
      VisibleRows(p) == Rows(false, false, false, false, false, false, false)
  {
  }

  // ---------------------------------------------------------------------------
  // The staking and treasury slots as written

  /** What one `cond && value && (<div/>)` slot of the card puts on screen. */
  datatype Slot = Nothing | Row | Zero

  /**
   * A numeric slot as written: when the stage matches, the `&&` chain
   * evaluates to the value itself if it is falsy, and React renders the
   * number 0 as the text "0"; an absent value renders nothing.
   */
  function NumericSlotAsWritten(stageOk: bool, v: Option<real>): (s: Slot)
    ensures s == Row <==> stageOk && v.Some? && v.value != 0.0
    ensures s == Zero <==> stageOk && v == Some(0.0)
  {
    if !stageOk || v.None? then Nothing
    else if v.value == 0.0 then Zero
    else Row
  }

  /** The "Staking APY" slot as written. */
  function StakingSlotAsWritten(p: Project): (s: Slot)
    ensures s == Zero <==> p.stage in {"Locked", "Unlocked"} && p.stakingApy == Some(0.0)
  {
    NumericSlotAsWritten(p.stage == "Locked" || p.stage == "Unlocked", p.stakingApy)
  }

  /** The "Treasury Fund" slot as written. */
  function TreasurySlotAsWritten(p: Project): (s: Slot)
    ensures s == Zero <==> p.stage in {"Locked", "Unlocked"} && p.treasuryFund == Some(0.0)
  {
    NumericSlotAsWritten(p.stage == "Locked" || p.stage == "Unlocked", p.treasuryFund)
  }

  /**
   * The slots as written show a row exactly when `VisibleRows` does, and
   * otherwise either nothing or a stray "0"; `VisibleRows` shows nothing
   * in the stray-zero case.
   */
  lemma SlotsAgreeWithRows(p: Project)
    ensures StakingSlotAsWritten(p) == Row <==> VisibleRows(p).stakingApy
    ensures TreasurySlotAsWritten(p) == Row <==> VisibleRows(p).treasuryFund
    ensures StakingSlotAsWritten(p) == Zero ==> !VisibleRows(p).stakingApy
    ensures TreasurySlotAsWritten(p) == Zero ==> !VisibleRows(p).treasuryFund
  {
  }

  /** A Locked card with a staking APY of 0 shows a bare "0" where no row is intended. */
  lemma StrayZeroLocked()
    ensures var p := Project("1", "M", "Meme", "", "Locked", "normal", None, 0.0, "UETH", 0,
                             None, None, None, 0.0, Some(0.0), None, None, false);
      StakingSlotAsWritten(p) == Zero && !VisibleRows(p).stakingApy
  {
  }
}

=== FILE: seqs.dfy ===
/**
 * `Array.prototype.filter` as a function on sequences, with the facts the
 * models rely on: what it keeps, that it keeps order (a subsequence), that
 * two filters in a row are one filter, and that filtering is idempotent.
 */
module Seqs {

  /** The elements of `s` satisfying `keep`, in their original order. */
  function Filter<T>(s: seq<T>, keep: T -> bool): (r: seq<T>)
    ensures |r| <= |s|
    ensures forall i :: 0 <= i < |r| ==> keep(r[i])
    ensures forall i :: 0 <= i < |s| && keep(s[i]) ==> s[i] in r
    ensures forall x :: x in r ==> x in s
  {
    if s == [] then []
    else if keep(s[0]) then [s[0]] + Filter(s[1..], keep)
    else Filter(s[1..], keep)
  }

  /** A filter keeps every occurrence of a kept value and none of a dropped one. */
  lemma {:induction false} FilterCounts<T>(s: seq<T>, keep: T -> bool)
    ensures forall x | x in s :: multiset(Filter(s, keep))[x] == if keep(x) then multiset(s)[x] else 0
  {
    if s != [] {
      FilterCounts(s[1..], keep);
      assert s == [s[0]] + s[1..];
    }
  }

  /** `a` is obtained from `b` by deleting elements (order is kept). */
  predicate SubseqOf<T(==)>(a: seq<T>, b: seq<T>)
    decreases |b|
  {
    a == [] || (b != [] && ((a[0] == b[0] && SubseqOf(a[1..], b[1..])) || SubseqOf(a, b[1..])))
  }

  /** A filter result is a subsequence of its input. */
  lemma {:induction false} FilterIsSubseq<T>(s: seq<T>, keep: T -> bool)
    ensures SubseqOf(Filter(s, keep), s)
  {
    if s != [] {
      FilterIsSubseq(s[1..], keep);
      if keep(s[0]) {
        assert Filter(s, keep)[1..] == Filter(s[1..], keep);
      }
    }
  }

  /** The conjunction of two predicates. */
  function Both<T>(f: T -> bool, g: T -> bool): T -> bool {
    x => f(x) && g(x)
  }

  /** Filtering by `f` and then by `g` is filtering once by "f and g". */
  lemma {:induction false} FilterFuse<T>(s: seq<T>, f: T -> bool, g: T -> bool)
    ensures Filter(Filter(s, f), g) == Filter(s, Both(f, g))
  {
    if s != [] {
      FilterFuse(s[1..], f, g);
      if f(s[0]) {
        assert Filter(s, f) == [s[0]] + Filter(s[1..], f);
        assert ([s[0]] + Filter(s[1..], f))[1..] == Filter(s[1..], f);
      }
    }
  }

  /** Two predicates that agree on every element of `s` filter it alike. */
  lemma {:induction false} FilterAgree<T>(s: seq<T>, f: T -> bool, g: T -> bool)
    requires forall i :: 0 <= i < |s| ==> f(s[i]) == g(s[i])
    ensures Filter(s, f) == Filter(s, g)
  {
    if s != [] {
      FilterAgree(s[1..], f, g);
    }
  }

  /** A predicate that holds of every element keeps the whole sequence. */
  lemma {:induction false} FilterAll<T>(s: seq<T>, keep: T -> bool)
    requires forall i :: 0 <= i < |s| ==> keep(s[i])
    ensures Filter(s, keep) == s
  {
    if s != [] {
      FilterAll(s[1..], keep);
    }
  }

  /** Filtering twice by the same predicate is filtering once. */
  lemma FilterIdempotent<T>(s: seq<T>, keep: T -> bool)
    ensures Filter(Filter(s, keep), keep) == Filter(s, keep)
  {
    var r := Filter(s, keep);
    FilterAll(r, keep);
  }
}

=== FILE: text.dfy ===
/**
 * Character and string helpers shared by the models: ASCII digits, ASCII
 * lower-casing (`toLowerCase`) and substring search (`includes`).
 */
module Text {

  predicate IsDigit(c: char) {
    '0' <= c <= '9'
  }

  predicate IsDigitOrDot(c: char) {
    IsDigit(c) || c == '.'
  }

  /**
   * The white space and line terminators that `Number.parseFloat` skips
   * before a number: tab, line feed, vertical tab, form feed, carriage
   * return, space, no-break space, the byte order mark, the line and
   * paragraph separators and the other Unicode space separators.
   */
  predicate IsJsSpace(c: char) {
    c == ' ' || '\t' <= c <= '\r' || c == '\U{A0}' || c == '\U{1680}' ||
    '\U{2000}' <= c <= '\U{200A}' || c == '\U{2028}' || c == '\U{2029}' ||
    c == '\U{202F}' || c == '\U{205F}' || c == '\U{3000}' || c == '\U{FEFF}'
  }

  predicate AllDigits(s: string) {
    forall i :: 0 <= i < |s| ==> IsDigit(s[i])
  }

  /**
   * `c.toLowerCase()` restricted to ASCII: an upper-case Latin letter maps to
   * the same letter in lower case, 32 code points further on.
   */
  function LowerChar(c: char): (r: char)
    ensures 'A' <= c <= 'Z' ==> 'a' <= r <= 'z' && r as int == c as int + 32
    ensures !('A' <= c <= 'Z') ==> r == c
    ensures !('A' <= r <= 'Z')
  {
    if 'A' <= c <= 'Z' then (c as int - 'A' as int + 'a' as int) as char else c
  }

  /** `s.toLowerCase()` over ASCII: same length, every character lower-cased in place. */
  function Lower(s: string): (r: string)
    ensures |r| == |s|
    ensures forall i :: 0 <= i < |s| ==> r[i] == LowerChar(s[i])
  {
    if s == [] then [] else [LowerChar(s[0])] + Lower(s[1..])
  }

  /** Lower-casing twice is lower-casing once. */
  lemma LowerIdempotent(s: string)
    ensures Lower(Lower(s)) == Lower(s)
  {
    assert forall i :: 0 <= i < |s| ==> Lower(Lower(s))[i] == Lower(s)[i];
  }

  /** The longest prefix of `s` made of digits. */
  function DigitPrefix(s: string): (r: string)
    ensures |r| <= |s| && r == s[..|r|]
    ensures AllDigits(r)
    ensures |r| < |s| ==> !IsDigit(s[|r|])
  {
    if s != [] && IsDigit(s[0]) then [s[0]] + DigitPrefix(s[1..]) else []
  }

  /** Does `needle` occur in `s` at index `i`? */
  predicate OccursAt(s: string, needle: string, i: int) {
    0 <= i && i + |needle| <= |s| && s[i..i + |needle|] == needle
  }

  /**
   * `s.includes(needle)`: some index of `s` starts an occurrence of `needle`.
   * The empty needle occurs everywhere.
   */
  function Contains(s: string, needle: string): (r: bool)
    ensures r <==> exists i :: OccursAt(s, needle, i)
    decreases |s|
  {
    if |needle| <= |s| && s[..|needle|] == needle then
      assert OccursAt(s, needle, 0);
      true
    else if |s| == 0 then
      assert forall i :: !OccursAt(s, needle, i);
      false
    else
      var rest := Contains(s[1..], needle);
      assert forall i :: OccursAt(s[1..], needle, i) <==> OccursAt(s, needle, i + 1);
      assert forall i :: OccursAt(s, needle, i) ==> i == 0 || OccursAt(s[1..], needle, i - 1);
      rest
  }
}

=== FILE: throttle.dfy ===
/**
 * The two throttling hooks, as timer state machines with the clock passed in.
 *
 * `useThrottleFn` wraps a function: a call runs it at once when `limit`
 * milliseconds have passed since the last run, and otherwise (re)schedules a
 * trailing run of the latest arguments for `lastRan + limit`. The wrapped
 * function itself is foreign code; each invocation is recorded in a log of
 * runs.
 *
 * `useThrottle` wraps a value: every change of the value (re)schedules a
 * handler for `lastRan + limit` that copies the value into the throttled
 * value.
 */
module Throttle {
  import opened Wrappers

  const DefaultLimit: int := 200

  // ---------------------------------------------------------------------------
  // useThrottleFn

  /** One invocation of the wrapped function: when, and with which arguments. */
  datatype Run<A> = Run(at: int, args: A)

  /** The three refs of the hook, and the log of runs of the wrapped function. */
  datatype FnState<A> = FnState(lastRan: int, lastArgs: Option<A>, due: Option<int>, runs: seq<Run<A>>)

  /** Mounting: `lastRan` is the mount time, no arguments yet, no timer, no run. */
  function MountFn<A>(now: int): (s: FnState<A>)
    ensures s.lastRan == now && s.lastArgs.None? && s.due.None? && s.runs == []
  {
    FnState(now, None, None, [])
  }

  /** The trailing-run timer is pending and due at `now`. */
  predicate TimerDue<A>(s: FnState<A>, now: int) {
    s.due.Some? && now >= s.due.value
  }

  /**
   * A call of the throttled function at `now`. The arguments are remembered
   * either way. When `limit` has passed since the last run the function runs
   * at once (a pending timer is left alone); otherwise the pending timer is
   * replaced by one due exactly `limit` after the last run.
   */
  function CallStep<A>(s: FnState<A>, args: A, now: int, limit: int): (r: FnState<A>)
    ensures r.lastArgs == Some(args)
    ensures now - s.lastRan >= limit ==>
      r.runs == s.runs + [Run(now, args)] && r.lastRan == now && r.due == s.due
    ensures now - s.lastRan < limit ==>
      && r.runs == s.runs && r.lastRan == s.lastRan
      && r.due == Some(s.lastRan + limit) && now < r.due.value
  {
    if now - s.lastRan >= limit then FnState(now, Some(args), s.due, s.runs + [Run(now, args)])
    else FnState(s.lastRan, Some(args), Some(now + (limit - (now - s.lastRan))), s.runs)
  }

  /**
   * The clock reaching `now`: a due timer runs the function with the latest
   * arguments, records the run time and clears itself.
   */
  function FireStep<A>(s: FnState<A>, now: int): (r: FnState<A>)
    ensures TimerDue(s, now) && s.lastArgs.Some? ==>
      r.runs == s.runs + [Run(now, s.lastArgs.value)] && r.lastRan == now && r.due.None?
    ensures !TimerDue(s, now) ==> r == s
    ensures r.lastArgs == s.lastArgs
  {
    if TimerDue(s, now) && s.lastArgs.Some? then
      FnState(now, s.lastArgs, None, s.runs + [Run(now, s.lastArgs.value)])
    else s
  }

  /** Unmounting clears the pending timer. */
  function UnmountFn<A>(s: FnState<A>): (r: FnState<A>)
    ensures r.due.None? && r.runs == s.runs && r.lastRan == s.lastRan && r.lastArgs == s.lastArgs
  {
    s.(due := None)
  }

  /** Consecutive runs are at least `limit` apart. */
  predicate Spaced<A>(runs: seq<Run<A>>, limit: int) {
    forall i :: 0 < i < |runs| ==> runs[i - 1].at + limit <= runs[i].at
  }

  /** A pending timer always has arguments to run. */
  predicate ArgsReady<A>(s: FnState<A>) {
    s.due.Some? ==> s.lastArgs.Some?
  }

  /**
   * The throttling invariant: a pending timer is due `limit` after the last
   * run, `lastRan` is the time of the last run, and the runs are spaced.
   */
  predicate Throttled<A>(s: FnState<A>, limit: int) {
    && ArgsReady(s)
    && (s.due.Some? ==> s.due.value == s.lastRan + limit)
    && (|s.runs| > 0 ==> s.runs[|s.runs| - 1].at == s.lastRan)
    && Spaced(s.runs, limit)
  }

  lemma ArgsReadyPreserved<A>(s: FnState<A>, args: A, now: int, limit: int)
    requires ArgsReady(s)
    ensures ArgsReady(CallStep(s, args, now, limit))
    ensures ArgsReady(FireStep(s, now))
    ensures ArgsReady(UnmountFn(s))
  {
  }

  /** Appending a run `limit` after the last one keeps the log spaced. */
  lemma SpacedAppend<A>(runs: seq<Run<A>>, run: Run<A>, lastRan: int, limit: int)
    requires Spaced(runs, limit)
    requires |runs| > 0 ==> runs[|runs| - 1].at == lastRan
    requires lastRan + limit <= run.at
    ensures Spaced(runs + [run], limit)
  {
    var r := runs + [run];
    forall i | 0 < i < |r|
      ensures r[i - 1].at + limit <= r[i].at
    {
      if i < |runs| {
        assert r[i - 1] == runs[i - 1] && r[i] == runs[i];
      } else {
        assert r[i - 1] == runs[|runs| - 1] && r[i] == run;
      }
    }
  }

  /**
   * When timers fire on time (no call arrives while a timer is overdue), a
   * call keeps the invariant: a call that runs at once finds no timer pending.
   */
  lemma CallKeepsThrottled<A>(s: FnState<A>, args: A, now: int, limit: int)
    requires Throttled(s, limit) && !TimerDue(s, now)
    ensures Throttled(CallStep(s, args, now, limit), limit)
  {
    if now - s.lastRan >= limit {
      SpacedAppend(s.runs, Run(now, args), s.lastRan, limit);
    }
  }

  /** A fire keeps the invariant: the timer is due no earlier than `limit` after the last run. */
  lemma FireKeepsThrottled<A>(s: FnState<A>, now: int, limit: int)
    requires Throttled(s, limit)
    ensures Throttled(FireStep(s, now), limit)
  {
    if TimerDue(s, now) {
      SpacedAppend(s.runs, Run(now, s.lastArgs.value), s.lastRan, limit);
    }
  }

  /** What reaches the hook: a call of the throttled function, or the clock. */
  datatype Event<A> = Call(args: A, now: int) | Tick(now: int)

  function Step<A>(s: FnState<A>, e: Event<A>, limit: int): FnState<A> {
    match e
    case Call(args, now) => CallStep(s, args, now, limit)
    case Tick(now) => FireStep(s, now)
  }

  function Replay<A>(s: FnState<A>, es: seq<Event<A>>, limit: int): FnState<A>
    decreases |es|
  {
    if es == [] then s else Replay(Step(s, es[0], limit), es[1..], limit)
  }

  /** Every call in the trace arrives while no timer is overdue. */
  predicate OnTime<A>(s: FnState<A>, es: seq<Event<A>>, limit: int)
    decreases |es|
  {
    es == [] ||
    ((es[0].Call? ==> !TimerDue(s, es[0].now)) && OnTime(Step(s, es[0], limit), es[1..], limit))
  }

  /**
   * Over any trace whose timers fire on time, the wrapped function never runs
   * twice within `limit` milliseconds, and runs are only ever added to the log.
   */
  lemma {:induction false} OnTimeRunsSpaced<A>(s: FnState<A>, es: seq<Event<A>>, limit: int)
    requires Throttled(s, limit) && OnTime(s, es, limit)
    ensures Throttled(Replay(s, es, limit), limit)
    ensures Spaced(Replay(s, es, limit).runs, limit)
    ensures s.runs <= Replay(s, es, limit).runs
    decreases |es|
  {
    if es != [] {
      var s' := Step(s, es[0], limit);
      match es[0] {
        case Call(args, now) => CallKeepsThrottled(s, args, now, limit);
        case Tick(now) => FireKeepsThrottled(s, now, limit);
      }
      OnTimeRunsSpaced(s', es[1..], limit);
    }
  }

  /**
   * Calls in a burst inside the limit collapse into one trailing run, with
   * the arguments of the last call, at the first clock reading from
   * `lastRan + limit` on.
   */
  lemma BurstRunsLatestOnce<A>(s: FnState<A>, a: A, b: A, t1: int, t2: int, now: int, limit: int)
    requires Throttled(s, limit)
    requires t1 - s.lastRan < limit && t2 - s.lastRan < limit
    ensures var s2 := CallStep(CallStep(s, a, t1, limit), b, t2, limit);
      && s2.runs == s.runs
      && (now < s.lastRan + limit ==> FireStep(s2, now) == s2)
      && (now >= s.lastRan + limit ==> FireStep(s2, now).runs == s.runs + [Run(now, b)])
  {
  }

  /**
   * A call that finds the trailing timer overdue runs at once and leaves
   * that timer scheduled; when the timer fires at the same instant, the
   * function runs a second time with the same arguments, so these two runs
   * are not `limit` apart.
   */
  lemma OverdueTimerRunsTwice<A>(s: FnState<A>, b: A, now: int, limit: int)
    requires Throttled(s, limit) && TimerDue(s, now)
    ensures var r := FireStep(CallStep(s, b, now, limit), now);
      && r.runs == s.runs + [Run(now, b), Run(now, b)]
      && (limit > 0 ==> !Spaced(r.runs, limit))
  {
    var r := FireStep(CallStep(s, b, now, limit), now);
    assert r.runs == s.runs + [Run(now, b)] + [Run(now, b)];
    if limit > 0 {
      var i := |r.runs| - 1;
      assert r.runs[i - 1].at + limit > r.runs[i].at;
    }
  }

  /** The hook instance: its refs, and the log of runs of the wrapped function. */
  class ThrottledFn<A> {
    var lastRan: int
    var lastArgs: Option<A>
    var due: Option<int>
    var runs: seq<Run<A>>
    const limit: int

    function State(): FnState<A>
      reads this
    {
      FnState(lastRan, lastArgs, due, runs)
    }

    ghost predicate Valid()
      reads this
    {
      ArgsReady(State())
    }

    constructor (now: int, limit: int)
      ensures Valid() && Throttled(State(), limit)
      ensures State() == MountFn(now) && this.limit == limit
    {
      lastRan := now;
      lastArgs := None;
      due := None;
      runs := [];
      this.limit := limit;
    }

    /** Calling the throttled function at `now`. */
    method Call(args: A, now: int)
      requires Valid()
      modifies this
      ensures Valid()
      ensures State() == CallStep(old(State()), args, now, limit)
      ensures Throttled(old(State()), limit) && !TimerDue(old(State()), now) ==> Throttled(State(), limit)
    {
      ghost var s := State();
      lastArgs := Some(args);
      if now - lastRan >= limit {
        runs := runs + [Run(now, args)];
        lastRan := now;
      } else {
        due := Some(now + (limit - (now - lastRan)));
      }
      if Throttled(s, limit) && !TimerDue(s, now) {
        CallKeepsThrottled(s, args, now, limit);
      }
    }

    /** The clock reaching `now`; answers whether the trailing run happened. */
    method Fire(now: int) returns (ran: bool)
      requires Valid()
      modifies this
      ensures Valid()
      ensures ran == TimerDue(old(State()), now)
      ensures State() == FireStep(old(State()), now)
      ensures Throttled(old(State()), limit) ==> Throttled(State(), limit)
    {
      ghost var s := State();
      ran := due.Some? && now >= due.value;
      if ran {
        lastRan := now;
        runs := runs + [Run(now, lastArgs.value)];
        due := None;
      }
      if Throttled(s, limit) {
        FireKeepsThrottled(s, now, limit);
      }
    }

    method Unmount()
      requires Valid()
      modifies this
      ensures Valid()
      ensures State() == UnmountFn(old(State()))
    {
      due := None;
    }
  }

  // ---------------------------------------------------------------------------
  // useThrottle

  /** A scheduled handler: the value it captured and when it fires. */
  datatype Handler<T> = Handler(value: T, due: int)

  /** The value passed in, the throttled value handed out, the `lastRan` ref and the pending handler. */
  datatype ValueState<T> = ValueState(value: T, throttled: T, lastRan: int, handler: Option<Handler<T>>)

  /**
   * Mounting at `now`: the throttled value starts as the value, `lastRan` is
   * `now`, and the effect schedules a handler `limit` later.
   */
  function MountValue<T>(v: T, now: int, limit: int): (s: ValueState<T>)
    ensures s.value == v && s.throttled == v && s.lastRan == now
    ensures s.handler == Some(Handler(v, now + limit))
  {
    ValueState(v, v, now, Some(Handler(v, now + (limit - (now - now)))))
  }

  /**
   * A render with value `v` at `now`: when `v` differs from the previous
   * value the effect re-runs, cancelling the pending handler and scheduling
   * one that copies `v`, due `limit` after the last update; an equal value
   * leaves everything as it is.
   */
  function ChangeStep<T(==)>(s: ValueState<T>, v: T, now: int, limit: int): (r: ValueState<T>)
    ensures v == s.value ==> r == s
    ensures v != s.value ==>
      && r.value == v && r.throttled == s.throttled && r.lastRan == s.lastRan
      && r.handler == Some(Handler(v, s.lastRan + limit))
  {
    if v == s.value then s
    else ValueState(v, s.throttled, s.lastRan, Some(Handler(v, now + (limit - (now - s.lastRan)))))
  }

  predicate HandlerDue<T>(s: ValueState<T>, now: int) {
    s.handler.Some? && now >= s.handler.value.due
  }

  /**
   * The clock reaching `now`: a due handler copies its value into the
   * throttled value when `limit` has passed since the last update, and is
   * spent either way.
   */
  function FireValueStep<T>(s: ValueState<T>, now: int, limit: int): (r: ValueState<T>)
    ensures !HandlerDue(s, now) ==> r == s
    ensures HandlerDue(s, now) ==> r.handler.None? && r.value == s.value
    ensures HandlerDue(s, now) && now - s.lastRan >= limit ==>
      r.throttled == s.handler.value.value && r.lastRan == now
    ensures HandlerDue(s, now) && now - s.lastRan < limit ==>
      r.throttled == s.throttled && r.lastRan == s.lastRan
  {
    if !HandlerDue(s, now) then s
    else if now - s.lastRan >= limit then ValueState(s.value, s.handler.value.value, now, None)
    else s.(handler := None)
  }

  /** Unmounting cancels the pending handler. */
  function UnmountValue<T>(s: ValueState<T>): (r: ValueState<T>)
    ensures r.handler.None? && r.value == s.value && r.throttled == s.throttled && r.lastRan == s.lastRan
  {
    s.(handler := None)
  }

  /**
   * While mounted: a pending handler carries the current value and is due
   * `limit` after the last update, and with no handler pending the
   * throttled value has caught up with the value.
   */
  predicate Settling<T(==)>(s: ValueState<T>, limit: int) {
    match s.handler
    case Some(h) => h.value == s.value && h.due == s.lastRan + limit
    case None => s.throttled == s.value
  }

  lemma SettlingPreserved<T>(s: ValueState<T>, v: T, now: int, limit: int)
    requires Settling(s, limit)
    ensures Settling(MountValue(v, now, limit), limit)
    ensures Settling(ChangeStep(s, v, now, limit), limit)
    ensures Settling(FireValueStep(s, now, limit), limit)
  {
  }

  /**
   * A handler that fires never finds itself early: it always copies the
   * latest value into the throttled value and records the time.
   */
  lemma DueHandlerAlwaysUpdates<T>(s: ValueState<T>, now: int, limit: int)
    requires Settling(s, limit) && HandlerDue(s, now)
    ensures FireValueStep(s, now, limit).throttled == s.value
    ensures FireValueStep(s, now, limit).lastRan == now
  {
  }

  /**
   * Two quick changes: the first one's handler is cancelled, so at the
   * first clock reading from `lastRan + limit` on the throttled value
   * becomes the second value, and before that it stays.
   */
  lemma LatestValueWins<T>(s: ValueState<T>, a: T, b: T, t1: int, t2: int, now: int, limit: int)
    requires Settling(s, limit) && a != s.value && b != a
    ensures var s2 := ChangeStep(ChangeStep(s, a, t1, limit), b, t2, limit);
      && (now < s.lastRan + limit ==> FireValueStep(s2, now, limit).throttled == s.throttled)
      && (now >= s.lastRan + limit ==> FireValueStep(s2, now, limit).throttled == b)
  {
  }

  /** The hook instance: the value it was rendered with, its state cell, the ref and the handler. */
  class ThrottledValue<T(==)> {
    var value: T
    var throttled: T
    var lastRan: int
    var handler: Option<Handler<T>>
    const limit: int

    function State(): ValueState<T>
      reads this
    {
      ValueState(value, throttled, lastRan, handler)
    }

    ghost predicate Valid()
      reads this
    {
      Settling(State(), limit)
    }

    constructor (v: T, now: int, limit: int)
      ensures Valid()
      ensures State() == MountValue(v, now, limit) && this.limit == limit
    {
      value := v;
      throttled := v;
      lastRan := now;
      handler := Some(Handler(v, now + (limit - (now - now))));
      this.limit := limit;
    }

    /** A render with value `v` at `now`. */
    method Render(v: T, now: int)
      requires Valid()
      modifies this
      ensures Valid()
      ensures State() == ChangeStep(old(State()), v, now, limit)
    {
      if v != value {
        value := v;
        handler := Some(Handler(v, now + (limit - (now - lastRan))));
      }
    }

    /** The clock reaching `now`; answers whether the throttled value was updated. */
    method Fire(now: int) returns (updated: bool)
      requires Valid()
      modifies this
      ensures Valid()
      ensures updated == HandlerDue(old(State()), now)
      ensures State() == FireValueStep(old(State()), now, limit)
      ensures updated ==> throttled == value && lastRan == now
    {
      updated := false;
      if handler.Some? && now >= handler.value.due {
        if now - lastRan >= limit {
          throttled := handler.value.value;
          lastRan := now;
          updated := true;
        }
        handler := None;
      }
    }

    method Unmount()
      modifies this
      ensures State() == UnmountValue(old(State()))
    {
      handler := None;
    }
  }
}

=== FILE: wrappers.dfy ===
/** The optional value used wherever the source has `undefined`, `null` or `NaN`. */
module Wrappers {

  datatype Option<+T> = None | Some(value: T) {

    /** The value, or `default` when there is none (the source's `x || default`). */
    function GetOr(default: T): T {
      match this
      case Some(v) => v
      case None => default
    }
  }
}
